=== FILE: README.md ===
# Script tracker core in Dafny

A model of the record logic of a small dashboard for tracking database
scripts. Each record has a name, path, category, priority, status,
responsible party, notes and timestamps. The model has two sides.

**Server.** A Flask/SQLAlchemy application holds the records in one table and
exposes them through REST handlers.
- The table is modelled as a map from keys to records plus the next key to
  hand out (`ScriptModel.Db`).
- Each handler is a pure transition. It returns the table after the request
  and a reply that is either success or a failure (`ScriptRoutes.Outcome`).
- A failure always leaves the table as it was, as the handlers' rollback does.

**Client.** A single-page script holds the loaded records, four filter inputs,
the per-status counts and an edit target. The edit target decides whether the
form creates or updates. The model covers the filter engine and counts, the
label and icon tables, the card's action buttons, the empty-state choice and
the dialog's state machine.

Modules:
- `Common`: optional values, results and JSON keys that may be missing; Python
  and JavaScript truthiness of strings; subsequences.
- `Text`: ASCII lower-casing and substring search.
- `ScriptModel` (`src/models/script.py`): the record and its defaults, the
  `from_dict` merge, `to_dict`, `get_stats`, `get_categories` and
  `search_and_filter`.
- `ScriptRoutes` (`src/routes/scripts.py`): create, read, update, delete,
  apply, listing and import.
- `ClientFilters` (`src/static/app.js`): `applyFilters` and `updateStats`.
- `Display` (`src/static/app.js`): the `Utils` tables, `createScriptCard` and
  `render`.
- `AppUi` (`src/static/app.js`): the page state, `Scripts.edit`,
  `Modal.reset`/`close`, the submit dispatch, reloading and the filter
  handlers.
- `Divergences`: where client and server disagree. They differ in two places,
  both modelled as written:
  - The client searches name and notes; the server searches the name only.
  - The client's form defaults the responsible party to `DBA`; the server's
    column default is `DBA Team`.

Time is an abstract integer (`ScriptModel.Time`). The caller supplies the
current time, so `datetime.utcnow()` is a parameter.

## Model

| member | source | states |
|---|---|---|
| ScriptModel.FromDict | src/models/script.py:48-64 | the merge fails exactly when `date_applied` is present and cannot be parsed; otherwise `date_updated` is the supplied time, `date_created` is kept, an existing `date_applied` is never cleared, and a present dependency list is stored as null exactly when it is falsy |
| ScriptModel.FromDictOverwritesOnlyPresent | src/models/script.py:50-59 | each of the ten plain columns takes the given value when its key is present and keeps its old value otherwise; `date_applied` changes only for a parsed timestamp; absent dependencies are kept |
| ScriptModel.FromDictWithoutKeysTouchesOnlyUpdated | src/models/script.py:48-64 | an object without any known key changes nothing but `date_updated` |
| ScriptModel.FromDictIdempotent | src/models/script.py:48-64 | merging the same object twice gives the same record as merging it once at the later time |
| ScriptModel.FromDictComposes | src/models/script.py:48-64 | two successive merges equal one merge of the combined object, in which the later object wins on every key it carries, except that a falsy `date_applied` does not override |
| ScriptModel.InsertDefaults | src/models/script.py:15-19 | an inserted row with a null status gets `pending` and with a null responsible gets `DBA Team`; a given value and every other column are kept |
| ScriptModel.ToDict | src/models/script.py:29-46 | the rendering carries the key and every column under its own name, always has both timestamps, and renders a null dependency list as `[]` |
| ScriptModel.DependenciesRoundTrip | src/models/script.py:45-62 | a dependency list stored through `from_dict` is rendered back by `to_dict` unchanged, and a null list is rendered as `[]` |
| ScriptModel.GetStats | src/models/script.py:66-79 | `total` is the number of rows and `pending + applied + error <= total` |
| ScriptModel.StatsCountListing | src/models/script.py:69-72 | each status count equals the length of the listing filtered by that status alone |
| ScriptModel.GetStatsMatchListings | src/models/script.py:66-79 | the pending, applied and error counts of `get_stats` equal the lengths of the listings filtered by that status |
| ScriptModel.CollectCategories | src/models/script.py:84-85 | the collected list has no duplicates and holds exactly the earlier entries plus the non-empty categories of the scanned rows |
| ScriptModel.GetCategories | src/models/script.py:81-85 | the categories are distinct, and each one is the non-empty category of some row |
| ScriptModel.GetCategoriesComplete | src/models/script.py:84-85 | a string is listed if and only if it is the non-empty category of some row |
| ScriptModel.FilterRows | src/models/script.py:92-102 | the result is an order-preserving subsequence, and a row is in it if and only if it satisfies every supplied criterion |
| ScriptModel.SortNewestFirst | src/models/script.py:104 | the result is a permutation of its input ordered by creation time, newest first |
| ScriptModel.SearchAndFilter | src/models/script.py:87-104 | every listed row is a row of the table that matches all supplied criteria; the search term is matched against the name only; rows come newest first |
| ScriptModel.SearchAndFilterComplete | src/models/script.py:87-104 | the listing holds every matching row of the table, and holds each one exactly once |
| ScriptRoutes.CreateScript | src/routes/scripts.py:36-65 | a missing body, or a missing or empty name or category, is rejected with "Nombre y categoría son requeridos"; a non-empty list body fails; a rejection leaves the table unchanged; success stores the merge of the body over a fresh record under a fresh key, with the column defaults for a null status or responsible, and returns its rendering; a body with a name and a category whose date parses and whose stored row has no null NOT NULL column always succeeds |
| ScriptRoutes.CreateAddsExactlyOne | src/routes/scripts.py:48-52 | a successful create adds exactly one key, which was not in use, and changes no other row |
| ScriptRoutes.CreateDefaults | src/models/script.py:15-19 | a created record whose body omits `status` or `responsible`, or gives null for it, has status `pending` and responsible `DBA Team`; a given value is stored as given; without `date_applied` it has no application date, and both timestamps are the creation time (one clock value per request; see "Left out") |
| ScriptRoutes.GetScript | src/routes/scripts.py:67-82 | a read succeeds if and only if the key is in the table, and then returns that row's rendering; otherwise it fails with not-found |
| ScriptRoutes.CreateThenGet | src/routes/scripts.py:48-82 | reading the new key after a create returns what the create answered |
| ScriptRoutes.UpdateScript | src/routes/scripts.py:90-123 | an unknown key fails with not-found, and a falsy body on a known key fails with "No se proporcionaron datos"; a failure leaves the table unchanged; success replaces that one row with the merge and returns its rendering; a truthy body on a known key whose date parses and whose merge leaves no NOT NULL column null always succeeds |
| ScriptRoutes.UpdateChangesOnlyTarget | src/routes/scripts.py:109-110 | a successful update keeps the key set and every other row, and changes the target only in the columns its body carries |
| ScriptRoutes.UpdateWithListTouchesOnlyTime | src/routes/scripts.py:102-110 | an update whose body is a non-empty list only refreshes `date_updated` |
| ScriptRoutes.DeleteScript | src/routes/scripts.py:125-150 | delete succeeds if and only if the key is in the table; an unknown key fails with not-found and leaves the table unchanged; otherwise exactly that key is removed and every other row is kept |
| ScriptRoutes.CreateThenDeleteRestores | src/routes/scripts.py:137-138 | deleting the row a create just added gives back the original rows |
| ScriptRoutes.DeleteThenGet | src/routes/scripts.py:137-138 | a deleted key reads as not-found |
| ScriptRoutes.ApplyScript | src/routes/scripts.py:152-181 | apply succeeds if and only if the key is in the table; an unknown key fails with not-found; otherwise that row gets status `applied` and the supplied time as `date_applied` and `date_updated`, and every other row is kept |
| ScriptRoutes.ApplyKeepsOtherColumns | src/routes/scripts.py:164-166 | apply leaves every other column of the row unchanged |
| ScriptRoutes.ApplyIdempotent | src/routes/scripts.py:164-166 | applying twice leaves the table as applying once at the later time |
| ScriptRoutes.ApplyShiftsStats | src/routes/scripts.py:164-166 | applying a pending row lowers the pending count by one and raises the applied count by one; the total and the error count stay the same |
| ScriptRoutes.NormalizeArg | src/routes/scripts.py:12-22 | a missing or empty query parameter becomes no criterion, and any other value is kept |
| ScriptRoutes.ListScripts | src/routes/scripts.py:8-28 | `count` is the length of `data`, and `data` renders the filtered, newest-first rows one by one in order |
| ScriptRoutes.NormalizeKeepsListing | src/routes/scripts.py:17-22 | normalising the parameters does not change the listing |
| ScriptRoutes.UnfilteredListingIsWholeTable | src/routes/scripts.py:17-28 | with every parameter missing or empty, `count` is the number of rows and the listed keys are exactly the table's keys |
| ScriptRoutes.FindByName | src/routes/scripts.py:253 | the key found holds a row with that name, and when none is found no row has that name |
| ScriptRoutes.ImportItem | src/routes/scripts.py:250-267 | an item counts as imported exactly when its merge succeeds; the first row with the same name keeps its key and becomes the merge of the item over it, every other row unchanged; without such a row exactly one row is added under a fresh key, holding the merge over a fresh record with the column defaults for a null status or responsible; a failed item changes nothing |
| ScriptRoutes.ImportEach | src/routes/scripts.py:247-267 | the imported count is the number of items whose merge succeeds, whatever the table holds; the errors name exactly the failing items, in order |
| ScriptRoutes.ImportScripts | src/routes/scripts.py:235-283 | anything but a non-empty list is rejected with "Se esperaba un array de scripts" and leaves the table unchanged; a non-empty list succeeds exactly when the loop leaves no NOT NULL column null, and then commits the loop's table; `imported_count` is the number of items whose merge succeeds and the errors name the others |
| ScriptRoutes.ImportItemKeepsNamesUnique | src/routes/scripts.py:253-262 | one import step never creates a second row with an existing name |
| ScriptRoutes.ImportEachKeepsNamesUnique | src/routes/scripts.py:250-264 | the import loop keeps names unique in a table where they were unique |
| ScriptRoutes.ImportItemGrowth | src/routes/scripts.py:253-262 | one import step removes no row, adds at most one, and keeps every key below the counter |
| ScriptRoutes.ImportEachGrowth | src/routes/scripts.py:250-264 | the import loop removes no row and adds at most one row per item |
| ScriptRoutes.ImportItemKeepsUnnamedRow | src/routes/scripts.py:253-262 | one import step leaves every row with another name unchanged |
| ScriptRoutes.ImportEachKeepsUnnamedRows | src/routes/scripts.py:250-264 | the import loop leaves unchanged every row whose name no item carries |
| ScriptRoutes.ImportKeepsUnnamedRows | src/routes/scripts.py:235-269 | an import leaves unchanged every row whose name no item carries, whether it succeeds or fails |
| ScriptRoutes.ImportUpsertsByName | src/routes/scripts.py:239-269 | import keeps the table valid and its names unique, and adds at most one row per item |
| ScriptRoutes.CreatePreservesValid | src/routes/scripts.py:48-52 | create keeps the keys below the allocation counter and every NOT NULL column set |
| ScriptRoutes.UpdatePreservesValid | src/routes/scripts.py:109-110 | update keeps the table valid |
| ScriptRoutes.DeletePreservesValid | src/routes/scripts.py:137-138 | delete keeps the table valid |
| ScriptRoutes.ApplyPreservesValid | src/routes/scripts.py:164-168 | apply keeps the table valid |
| Text.ContainsIffOccurs | src/static/app.js:322 | the scanning substring test holds if and only if the term occurs at some position |
| ClientFilters.ApplyFilters | src/static/app.js:317-332 | the shown list is an order-preserving subsequence of the loaded list; a record is shown if and only if it passes all four criteria; a record that passes appears as often as it was loaded |
| ClientFilters.ApplyFiltersAppend | src/static/app.js:320-330 | filtering a concatenation is the concatenation of the filtered parts |
| ClientFilters.NoFiltersKeepsAll | src/static/app.js:490-503 | with all four criteria empty the shown list is the loaded list |
| ClientFilters.ApplyFiltersIdempotent | src/static/app.js:320-330 | filtering an already filtered list again changes nothing |
| ClientFilters.SearchIgnoresCase | src/static/app.js:321-323 | a search term and its lower-case form show the same records |
| ClientFilters.SearchWithoutNotesUsesName | src/static/app.js:321-323 | a record with absent or empty notes matches a non-empty term if and only if its name contains the term, ignoring case |
| ClientFilters.SearchFindsNotes | src/static/app.js:321-323 | a term found in the notes, ignoring case, matches whatever the name is |
| ClientFilters.UpdateStats | src/static/app.js:335-341 | `total` is the number of loaded records and `pending + applied + error <= total` |
| ClientFilters.CountIsFilteredLength | src/static/app.js:335-341 | the count of a status is the length of the list the status filter alone would show |
| ClientFilters.UpdateStatsMatchFilters | src/static/app.js:335-341 | the pending, applied and error counts are the lengths of the lists filtered by each of those statuses |
| Display.PriorityText | src/static/app.js:69-76 | a known priority shows its Spanish label; the text is the code itself if and only if the code is unknown |
| Display.StatusText | src/static/app.js:78-85 | a known status shows its Spanish label; the text is the code itself if and only if the code is unknown |
| Display.CategoryIcon | src/static/app.js:87-97 | a known category shows its icon; the icon is `fas fa-file-code` if and only if the category is unknown |
| Display.StatusIcon | src/static/app.js:99-106 | a known status shows its icon; the icon is `fas fa-question-circle` if and only if the status is unknown |
| Display.StatusIconFallsBackWithText | src/static/app.js:78-106 | a status shows the default icon if and only if it shows its raw code as text |
| Display.KnownStatusesAreLabelled | src/static/app.js:78-106 | `pending`, `applied` and `error` each have a label and an icon |
| Display.LookupAsWritten | src/static/app.js:69-106 | an own entry is returned as is, and an inherited member comes back exactly for a code that is not in the table and names a member of `Object.prototype` |
| Display.InheritedMemberDefeatsFallback | src/static/app.js:69-106 | the priority code `toString` yields an inherited function instead of falling back, and the status `constructor` does the same for the status icon |
| Display.LookupAgreesOffPrototype | src/static/app.js:69-106 | for every code that does not name an inherited member, the lookup as written and the corrected tables agree |
| Display.FooterActions | src/static/app.js:424-432 | the footer offers "Marcar Aplicado" if and only if the status is `pending`, and always ends with "Editar"; every button targets the record's id |
| Display.CardOf | src/static/app.js:364-436 | the header has edit and delete; the footer has mark-applied if and only if the record is pending, and always has edit; the category icon, priority text, status icon and status text are the `Utils` lookups of the record's codes; the path and responsible texts fall back exactly for falsy values (or values equal to the fallback); the application row is shown if and only if there is an application date; the notes are shown, as given, if and only if they are non-empty |
| Display.Render | src/static/app.js:349-362 | the empty state is chosen if and only if the shown list is empty; otherwise the grid holds, in order, exactly the card of each record |
| Display.MarkAppliedButtonsCountPending | src/static/app.js:425-432 | the number of cards offering "Marcar Aplicado" is the number of pending records shown |
| AppUi.Initial | src/static/app.js:2-12 | the initial page has no records, empty filters and an empty shown list, is consistent, and has no edit target and the dialog closed |
| AppUi.Reset | src/static/app.js:472-477 | reset clears the edit target, sets responsible to `DBA`, restores the other inputs to their defaults, and keeps the records, filters and counts |
| AppUi.Close | src/static/app.js:466-470 | `Modal.close` called on `Modal` (overlay click, Escape, after a save) hides the dialog, clears the edit target and resets the form |
| AppUi.CloseByButton | src/static/app.js:507-508 | the X and Cancel buttons, wired to `Modal.close` without its object, hide the dialog but keep the edit target and the form |
| AppUi.ButtonCloseKeepsEditTarget | src/static/app.js:466-470 | after the buttons close the dialog the edit target is still set, where a proper close clears it |
| AppUi.StaleTargetIsOverwritten | src/static/app.js:480-486 | reopening the dialog with the add button, or editing a loaded record, gives the same page after a button close as after a proper close, so the add dialog still creates |
| AppUi.OpenForCreate | src/static/app.js:472-486 | the add button opens the dialog with no edit target and the form reset to its defaults with responsible `DBA`, keeping the records, filters, shown list and counts |
| AppUi.FindById | src/static/app.js:440 | the lookup finds nothing if and only if no loaded record has the id; otherwise it returns the first such record |
| AppUi.FormOf | src/static/app.js:446-453 | the form takes name, category, priority and status as they are; absent path, responsible and notes become empty inputs |
| AppUi.Edit | src/static/app.js:439-457 | an id that is not loaded changes nothing; a loaded id becomes the edit target, fills the form from the first record with that id and opens the dialog; the records, filters and counts are kept |
| AppUi.PayloadOf | src/static/app.js:520-528 | the submitted object carries the seven inputs as strings and no other key |
| AppUi.Submit | src/static/app.js:517-536 | the form sends an update of the edit target if and only if the target is truthy (set and not 0), and a create otherwise; the body is the form |
| AppUi.ResetThenSubmitCreates | src/static/app.js:472-535 | after a reset the form creates, with responsible `DBA` |
| AppUi.EditThenSubmitUpdates | src/static/app.js:439-535 | after editing a loaded record with a non-zero id, the form updates that id and, if untouched, sends back the record's name, category, priority and status |
| AppUi.EditOfZeroIdCreates | src/static/app.js:531-535 | editing a record whose id is 0 makes it the edit target, yet the form then creates; the server never hands out key 0, so this is a property of the dispatch and not a reachable fault |
| AppUi.Reload | src/static/app.js:217-233 | a failed listing leaves the modelled state unchanged; a successful one replaces the records and leaves the page consistent, keeping the filters, the edit target and the form |
| AppUi.SetFilters | src/static/app.js:539-557 | a filter change stores the new criteria and keeps the page consistent without touching records or counts |
| AppUi.SetSearch | src/static/app.js:539-542 | typing a search term replaces only the search criterion and keeps the page consistent |
| AppUi.SetStatusFilter | src/static/app.js:544-547 | choosing a status replaces only the status criterion and keeps the page consistent |
| AppUi.SetCategoryFilter | src/static/app.js:549-552 | choosing a category replaces only the category criterion and keeps the page consistent |
| AppUi.SetPriorityFilter | src/static/app.js:554-557 | choosing a priority replaces only the priority criterion and keeps the page consistent |
| AppUi.ClearFilters | src/static/app.js:490-503 | clearing empties all four criteria, shows the whole loaded list again, and keeps the page consistent |
| AppUi.SaveNotice | src/static/app.js:236-266 | the notice is a success if and only if the save succeeded, and a rejection carrying a message shows that message |
| AppUi.AfterSave | src/static/app.js:236-266 | a rejected or failed save leaves the page, form and edit target unchanged; a successful one reloads, closes the dialog and clears the edit target |
| AppUi.StepsPreserveConsistency | src/static/app.js:217-233 | every handler keeps the shown list equal to the filtered loaded list and the counts equal to the counts of the loaded list |
| AppUi.RejectedSubmitRepeats | src/static/app.js:236-266 | after a rejected save, submitting again sends the same request |
| Divergences.Received | src/routes/scripts.py:24-28 | the client's record carries the listed row's id, columns and notes unchanged |
| Divergences.ServerSearchHitIsClientHit | src/static/app.js:321-323 | every row the server finds by a search term without `%` or `_` is also kept by the client search for that term (the server's `LIKE` wildcards are left out, see `ScriptModel.SearchAndFilter` under "Left out") |
| Divergences.NotesMatchOnlyOnClient | src/models/script.py:92-93 | a record whose notes, but not its name, contain the term is kept by the client and dropped by the server |
| Divergences.ClientCreateStoresClientDefault | src/static/app.js:476 | a record created through the add dialog is stored with responsible `DBA`, which differs from the server default `DBA Team` |
| Divergences.ClientCreateWithoutNameRejected | src/routes/scripts.py:42-46 | submitting the add dialog with an empty name is rejected and stores nothing |

## Left out

- Network I/O is not modelled: `fetch` (`API.*`), JSON encoding and HTTP status codes. Each handler returns a success or a failure value instead; the failure values note the status code in a comment.
- The page's presentation is not modelled: DOM updates, `innerHTML` markup and HTML escaping, toast timers, and the loading indicator. The overlay-click and Escape listeners call `Modal.close()` on `Modal`, as `AppUi.Close` models. The Ctrl+N shortcut does the same as the add button (`AppUi.OpenForCreate`).
- `Scripts.delete` asks for confirmation with `confirm()`, then sends the request `ScriptRoutes.DeleteScript` models and reloads; `Scripts.markAsApplied` sends the one `ScriptRoutes.ApplyScript` models and reloads. The client side of both is left out.
- `Scripts.loadSampleData` is left out: it posts to `/scripts/sample-data`, a route src/routes/scripts.py does not define, and the listener of its button is commented out (src/static/app.js:488).
- AppUi.Reload: a failed listing leaves the modelled state unchanged, but the page is not. `Loading.show` (src/static/app.js:204-208) has already hidden both the grid and the empty state, and the failure paths re-render neither, so the page shows no list at all. Which view is visible is not part of the modelled state.
- Async interleaving of reloads and saves is not modelled; each handler runs to completion.
- `Utils.formatDate` (locale formatting), `datetime.utcnow` and `fromisoformat` are left out. Time is an integer passed in, and an ISO string is either parsed or `Unparsable`. Each handler reads the clock once here, so reads the source makes separately collapse into that one value: `date_created` (the column default at INSERT) and `date_updated` on create, and `date_applied` and `date_updated` on apply.
- The form's reset defaults come from the page's markup, which is not part of this model; they are the parameter `blank`.
- The database engine is not modelled. Primary keys come from a counter (`Db.nextId`), so a new key is always fresh.
- ScriptModel.SearchAndFilter: the order SQL leaves open is fixed here. Ties in creation time, `.first()` in import and `.distinct()` in categories all follow ascending key order.
- ScriptModel.SearchAndFilter: SQL `LIKE` collation and the `%`/`_` wildcards are left out. Because they depend on the database, the name search here is an exact substring test.
- Text.ToLower: lower-cases ASCII letters only. JavaScript's `toLowerCase` also folds other Unicode letters.
- ScriptRoutes.ImportItem: an item whose `from_dict` raises changes nothing here. In the source, columns assigned before the exception may still be committed on an existing row, depending on the session.
- ScriptRoutes.ImportScripts: NOT NULL violations are detected only at the final commit, which then fails as a whole. SQLAlchemy's autoflush during the next item's query could instead fail that item.
- ScriptRoutes.ImportEach: an error is reported by the item's name alone. The exception text that the source appends is left out.
- Malformed JSON is left out: bodies that are strings or numbers, import items that are not objects, and values of the wrong JSON type for a column (such as a number as `name`). The one shape covered is a list body given to create or update.
- The `date_applied` branch that assigns a non-string value (src/models/script.py:58-59) is left out with the other wrong-type values of the malformed-JSON line above. A truthy number, boolean or list reaches it, and the `DateTime` column then refuses that value at flush.
- The dependency list is stored as the list itself. `json.dumps`/`json.loads` are left out beyond the falsy-to-null-to-`[]` rule.
- Column length limits such as `String(255)` are not enforced.
- The export route (src/routes/scripts.py:215-233) is left out. The stats and categories routes only wrap `ScriptModel.GetStats` and `ScriptModel.GetCategories`.
- The texts of 500 replies are left out because they are exception messages.

## Findings

| source | as written | input that shows it | evidently intended | confidence | as-written member | corrected member |
|---|---|---|---|---|---|---|
| src/static/app.js:69-106 | `table[code] \|\| fallback` on an object literal, which also finds members inherited from `Object.prototype` | priority `toString` (the text becomes a function) or status `constructor` (the status icon becomes a function) | a code the table does not list falls back: to the code itself for texts, and to the default icon for icons | medium; not executed | Display.LookupAsWritten, Display.InheritedMemberDefeatsFallback | Display.PriorityText, Display.StatusText, Display.CategoryIcon, Display.StatusIcon |
| src/static/app.js:507-508 | `addEventListener('click', Modal.close)` hands over the method without its object, so `this.reset()` at src/static/app.js:469 throws once the dialog is hidden | edit a record, then press Cancel: the dialog closes but `currentEditId` still holds that record's id | the buttons close the dialog as `Modal.close()` does, clearing the edit target and resetting the form | high; not executed | AppUi.CloseByButton, AppUi.ButtonCloseKeepsEditTarget | AppUi.Close |

=== FILE: app_ui.dfy ===
/** The client's page state (src/static/app.js, `AppState` and the handlers
    that change it): the loaded records, the filter inputs and the list they
    select, the per-status counts, and the edit target that decides whether
    the form creates or updates.  The form's fields and the dialog's
    visibility are part of the state; everything else on the page is
    derived from it. */
module AppUi {
  import opened Common
  import opened ClientFilters
  import ScriptModel

  /** The seven form inputs, as the strings the inputs hold. */
  datatype Form = Form(
    name: string,
    path: string,
    category: string,
    priority: string,
    status: string,
    responsible: string,
    notes: string)

  /** The client's default responsible party. */
  const ClientDefaultResponsible := "DBA"

  datatype UiState = UiState(
    scripts: seq<Record>,
    filters: Filters,
    filtered: seq<Record>,
    stats: Stats,
    editId: Option<int>,
    form: Form,
    modalOpen: bool)

  /** The shown list is the loaded list under the current filters, and the
      counts are the counts of the loaded list. */
  predicate Consistent(st: UiState) {
    && st.filtered == ApplyFilters(st.scripts, st.filters)
    && st.stats == UpdateStats(st.scripts)
  }

  /** The page before the first load: nothing loaded, no filter, no edit
      target, dialog closed. */
  function Initial(blank: Form): (st: UiState)
    ensures Consistent(st)
    ensures st.scripts == [] && st.filters == NoFilters && st.filtered == []
    ensures st.editId == None && !st.modalOpen
  {
    UiState([], NoFilters, [], UpdateStats([]), None, blank, false)
  }

  // ---------------------------------------------------------------------
  // The dialog and the edit target

  /** `Modal.reset`: no edit target, the form back to its defaults (`blank`,
      which the page's markup defines) except that responsible becomes
      "DBA". */
  function Reset(st: UiState, blank: Form): (r: UiState)
    ensures r.editId == None
    ensures r.form == blank.(responsible := ClientDefaultResponsible)
    ensures r.scripts == st.scripts && r.filters == st.filters && r.filtered == st.filtered
    ensures r.stats == st.stats && r.modalOpen == st.modalOpen
  {
    st.(editId := None, form := blank.(responsible := ClientDefaultResponsible))
  }

  /** `Modal.close` called on `Modal` (the overlay click, the Escape key and
      the end of a successful save): hide the dialog, then reset. */
  function Close(st: UiState, blank: Form): (r: UiState)
    ensures !r.modalOpen && r.editId == None
    ensures r.form == blank.(responsible := ClientDefaultResponsible)
    ensures r.scripts == st.scripts && r.filters == st.filters
    ensures r.filtered == st.filtered && r.stats == st.stats
  {
    Reset(st.(modalOpen := false), blank)
  }

  /** The dialog's X and Cancel buttons as they are wired: `Modal.close` is
      handed to `addEventListener` without its object, so inside it `this`
      is the button, which has no `reset`.  The call throws once the dialog
      is hidden, and the edit target and the form stay as they were. */
  function CloseByButton(st: UiState): (r: UiState)
    ensures !r.modalOpen
    ensures r.editId == st.editId && r.form == st.form
    ensures r.scripts == st.scripts && r.filters == st.filters
    ensures r.filtered == st.filtered && r.stats == st.stats
  {
    st.(modalOpen := false)
  }

  /** The buttons keep an edit target that a proper close clears. */
  lemma ButtonCloseKeepsEditTarget(st: UiState, blank: Form)
    requires st.editId.Some?
    ensures CloseByButton(st).editId == st.editId
    ensures Close(st, blank).editId == None
  {
  }

  /** The stale target never reaches a request.  The dialog opens again
      only through the add button, which resets, or through `Scripts.edit`,
      which replaces the target; either way the page is what a proper close
      would have left. */
  lemma StaleTargetIsOverwritten(st: UiState, blank: Form, id: int)
    ensures OpenForCreate(CloseByButton(st), blank) == OpenForCreate(Close(st, blank), blank)
    ensures Submit(OpenForCreate(CloseByButton(st), blank)).CreateRequest?
    ensures (exists i :: 0 <= i < |st.scripts| && st.scripts[i].id == id) ==>
              Edit(CloseByButton(st), id) == Edit(Close(st, blank), id)
  {
  }

  /** The "add script" button: reset, then open. */
  function OpenForCreate(st: UiState, blank: Form): (r: UiState)
    ensures r.modalOpen && r.editId == None
    ensures r.form == blank.(responsible := ClientDefaultResponsible)
    ensures r.scripts == st.scripts && r.filters == st.filters
    ensures r.filtered == st.filtered && r.stats == st.stats
  {
    Reset(st, blank).(modalOpen := true)
  }

  /** `Array.prototype.find` by id: the first loaded record with that id. */
  function FindById(xs: seq<Record>, id: int): (r: Option<Record>)
    ensures r.None? <==> forall i :: 0 <= i < |xs| ==> xs[i].id != id
    ensures r.Some? ==> r.value in xs && r.value.id == id
    ensures r.Some? ==> exists i :: 0 <= i < |xs| && xs[i] == r.value && forall j :: 0 <= j < i ==> xs[j].id != id
  {
    if xs == [] then None
    else if xs[0].id == id then Some(xs[0])
    else
      var r := FindById(xs[1..], id);
      assert r.Some? ==> exists i :: 0 <= i < |xs| && xs[i] == r.value && forall j :: 0 <= j < i ==> xs[j].id != id by {
        if r.Some? {
          var k :| 0 <= k < |xs[1..]| && xs[1..][k] == r.value && forall j :: 0 <= j < k ==> xs[1..][j].id != id;
          assert xs[k + 1] == r.value;
          assert forall j :: 0 <= j < k + 1 ==> xs[j].id != id by {
            forall j | 0 <= j < k + 1 ensures xs[j].id != id {
              if j > 0 { assert xs[j] == xs[1..][j - 1]; }
            }
          }
        }
      }
      r
  }

  /** The form filled from a record: absent path, responsible and notes
      become empty inputs. */
  function FormOf(x: Record): (f: Form)
    ensures f.name == x.name && f.category == x.category
    ensures f.priority == x.priority && f.status == x.status
    ensures f.path == x.path.GetOr("") && f.responsible == x.responsible.GetOr("")
    ensures f.notes == x.notes.GetOr("")
  {
    Form(x.name, x.path.GetOr(""), x.category, x.priority, x.status,
         x.responsible.GetOr(""), x.notes.GetOr(""))
  }

  /** `Scripts.edit`: for an id that is loaded, make it the edit target, fill
      the form from the first record with that id and open the dialog; for
      any other id, do nothing. */
  function Edit(st: UiState, id: int): (r: UiState)
    ensures (forall i :: 0 <= i < |st.scripts| ==> st.scripts[i].id != id) ==> r == st
    ensures (exists i :: 0 <= i < |st.scripts| && st.scripts[i].id == id) ==>
              && r.editId == Some(id)
              && r.modalOpen
              && FindById(st.scripts, id).Some?
              && r.form == FormOf(FindById(st.scripts, id).value)
    ensures r.scripts == st.scripts && r.filters == st.filters
    ensures r.filtered == st.filtered && r.stats == st.stats
  {
    match FindById(st.scripts, id)
    case None => st
    case Some(x) => st.(editId := Some(id), form := FormOf(x), modalOpen := true)
  }

  // ---------------------------------------------------------------------
  // Submitting the form

  /** The request the form's submit handler sends. */
  datatype Request = CreateRequest(body: ScriptModel.Payload) | UpdateRequest(id: int, body: ScriptModel.Payload)

  /** The JSON object the submit handler builds: the seven inputs, each
      present as a string; no other key. */
  function PayloadOf(f: Form): (p: ScriptModel.Payload)
    ensures p.name == Present(Some(f.name)) && p.category == Present(Some(f.category))
    ensures p.path == Present(Some(f.path)) && p.priority == Present(Some(f.priority))
    ensures p.status == Present(Some(f.status))
    ensures p.responsible == Present(Some(f.responsible)) && p.notes == Present(Some(f.notes))
    ensures p.fileSize.Absent? && p.checksum.Absent? && p.executionTime.Absent?
    ensures p.dateApplied.Absent? && p.dependencies.Absent? && !p.otherKeys
  {
    ScriptModel.EmptyPayload.(
      name := Present(Some(f.name)),
      path := Present(Some(f.path)),
      category := Present(Some(f.category)),
      priority := Present(Some(f.priority)),
      status := Present(Some(f.status)),
      responsible := Present(Some(f.responsible)),
      notes := Present(Some(f.notes)))
  }

  /** JavaScript truthiness of the edit target: set, and not the number 0. */
  predicate EditTargetTruthy(editId: Option<int>) {
    editId.Some? && editId.value != 0
  }

  /** The submit handler: update the edit target when it is truthy, create
      otherwise; either way the body is the form. */
  function Submit(st: UiState): (r: Request)
    ensures r.UpdateRequest? <==> EditTargetTruthy(st.editId)
    ensures r.UpdateRequest? ==> r.id == st.editId.value
    ensures r.body == PayloadOf(st.form)
  {
    if EditTargetTruthy(st.editId) then UpdateRequest(st.editId.value, PayloadOf(st.form))
    else CreateRequest(PayloadOf(st.form))
  }

  /** After a reset the form creates. */
  lemma ResetThenSubmitCreates(st: UiState, blank: Form)
    ensures Submit(Reset(st, blank)).CreateRequest?
    ensures Submit(Reset(st, blank)).body.responsible == Present(Some(ClientDefaultResponsible))
  {
  }

  /** After editing a loaded record with a non-zero id, the form updates
      that record, and an untouched form sends back its name, category,
      priority and status. */
  lemma EditThenSubmitUpdates(st: UiState, i: int)
    requires 0 <= i < |st.scripts| && st.scripts[i].id != 0
    ensures var id := st.scripts[i].id;
            var req := Submit(Edit(st, id));
            && req == UpdateRequest(id, req.body)
            && FindById(st.scripts, id).Some?
            && var x := FindById(st.scripts, id).value;
               && req.body.name == Present(Some(x.name))
               && req.body.category == Present(Some(x.category))
               && req.body.priority == Present(Some(x.priority))
               && req.body.status == Present(Some(x.status))
  {
  }

  /** Editing a record whose id is 0 leaves the edit target falsy, so the
      form then creates a new record instead of updating it.  The server
      hands out keys from 1 (`ScriptModel.KeysInRange`), so a listing from
      it never holds id 0: this is a property of the dispatch, not a
      reachable fault. */
  lemma EditOfZeroIdCreates(st: UiState)
    requires exists i :: 0 <= i < |st.scripts| && st.scripts[i].id == 0
    ensures Edit(st, 0).editId == Some(0)
    ensures Submit(Edit(st, 0)).CreateRequest?
  {
  }

  // ---------------------------------------------------------------------
  // Loading and filtering

  /** `Scripts.loadAll`: a successful listing replaces the loaded records,
      re-filters and recounts; a failed one leaves everything as it was. */
  function Reload(st: UiState, listing: Option<seq<Record>>): (r: UiState)
    ensures listing.None? ==> r == st
    ensures listing.Some? ==> r.scripts == listing.value && r.filters == st.filters
    ensures listing.Some? ==> Consistent(r)
    ensures r.editId == st.editId && r.form == st.form && r.modalOpen == st.modalOpen
  {
    match listing
    case None => st
    case Some(xs) => st.(scripts := xs, filtered := ApplyFilters(xs, st.filters), stats := UpdateStats(xs))
  }

  /** Any filter input changed: store the new criteria and re-filter. */
  function SetFilters(st: UiState, f: Filters): (r: UiState)
    ensures r.filters == f && r.scripts == st.scripts && r.stats == st.stats
    ensures Consistent(st) ==> Consistent(r)
    ensures r.editId == st.editId && r.form == st.form && r.modalOpen == st.modalOpen
  {
    st.(filters := f, filtered := ApplyFilters(st.scripts, f))
  }

  function SetSearch(st: UiState, v: string): (r: UiState)
    ensures r.filters == st.filters.(search := v)
    ensures Consistent(st) ==> Consistent(r)
  {
    SetFilters(st, st.filters.(search := v))
  }

  function SetStatusFilter(st: UiState, v: string): (r: UiState)
    ensures r.filters == st.filters.(status := v)
    ensures Consistent(st) ==> Consistent(r)
  {
    SetFilters(st, st.filters.(status := v))
  }

  function SetCategoryFilter(st: UiState, v: string): (r: UiState)
    ensures r.filters == st.filters.(category := v)
    ensures Consistent(st) ==> Consistent(r)
  {
    SetFilters(st, st.filters.(category := v))
  }

  function SetPriorityFilter(st: UiState, v: string): (r: UiState)
    ensures r.filters == st.filters.(priority := v)
    ensures Consistent(st) ==> Consistent(r)
  {
    SetFilters(st, st.filters.(priority := v))
  }

  /** The "clear filters" button: every criterion emptied, and the whole
      loaded list shown again. */
  function ClearFilters(st: UiState): (r: UiState)
    ensures r.filters == NoFilters
    ensures r.filtered == st.scripts
    ensures Consistent(st) ==> Consistent(r)
  {
    NoFiltersKeepsAll(st.scripts);
    SetFilters(st, NoFilters)
  }

  // ---------------------------------------------------------------------
  // The answer to a submitted form

  /** What came back for a create or update request. */
  datatype SaveOutcome =
    | Saved(listing: Option<seq<Record>>)   // success, then the reload's result
    | Rejected(error: Option<string>)       // `success: false`, with the server's message if any
    | ConnectionLost

  /** The notice shown for the answer. */
  datatype Notice = Notice(success: bool, message: string)

  function SaveNotice(isUpdate: bool, o: SaveOutcome): (n: Notice)
    ensures n.success <==> o.Saved?
    ensures o.Rejected? && Truthy(o.error) ==> n.message == o.error.value
  {
    match o
    case Saved(_) =>
      Notice(true, if isUpdate then "Script actualizado exitosamente" else "Script creado exitosamente")
    case Rejected(e) =>
      Notice(false, if Truthy(e) then e.value
                    else if isUpdate then "Error al actualizar script" else "Error al crear script")
    case ConnectionLost =>
      Notice(false, if isUpdate then "Error de conexión al actualizar script"
                    else "Error de conexión al crear script")
  }

  /** `Scripts.create`/`Scripts.update` after the answer: on success reload
      and close the dialog; otherwise keep the page, the form and the edit
      target as they were so the user can correct and resubmit. */
  function AfterSave(st: UiState, o: SaveOutcome, blank: Form): (r: UiState)
    ensures !o.Saved? ==> r == st
    ensures o.Saved? ==> !r.modalOpen && r.editId == None
    ensures o.Saved? && o.listing.Some? ==> r.scripts == o.listing.value
    ensures o.Saved? && o.listing.None? ==> r.scripts == st.scripts && r.filtered == st.filtered
  {
    match o
    case Saved(listing) => Close(Reload(st, listing), blank)
    case _ => st
  }

  /** Every handler keeps the shown list and the counts in step with the
      loaded list. */
  lemma StepsPreserveConsistency(st: UiState, blank: Form, id: int, f: Filters,
                                 listing: Option<seq<Record>>, o: SaveOutcome)
    requires Consistent(st)
    ensures Consistent(Reset(st, blank)) && Consistent(Close(st, blank))
    ensures Consistent(CloseByButton(st))
    ensures Consistent(OpenForCreate(st, blank)) && Consistent(Edit(st, id))
    ensures Consistent(SetFilters(st, f)) && Consistent(ClearFilters(st))
    ensures Consistent(Reload(st, listing)) && Consistent(AfterSave(st, o, blank))
  {
  }

  /** A failed answer followed by a second submit sends the same request
      again. */
  lemma RejectedSubmitRepeats(st: UiState, o: SaveOutcome, blank: Form)
    requires !o.Saved?
    ensures Submit(AfterSave(st, o, blank)) == Submit(st)
  {
  }
}

=== FILE: client_filters.dfy ===
/** The client's record cache and filter engine (src/static/app.js,
    `Scripts.applyFilters` and `Scripts.updateStats`): a conjunctive,
    order-preserving filter over the loaded records, and per-status counts
    over the same records. */
module ClientFilters {
  import opened Common
  import Text

  /** A record as the client receives it in the listing.  Only the fields
      the client reads are kept; timestamps are abstract. */
  datatype Record = Record(
    id: int,
    name: string,
    path: Option<string>,
    category: string,
    priority: string,
    status: string,
    responsible: Option<string>,
    notes: Option<string>,
    dateCreated: Option<int>,
    dateApplied: Option<int>)

  /** The four filter inputs; the empty string means no constraint. */
  datatype Filters = Filters(search: string, status: string, category: string, priority: string)

  const NoFilters := Filters("", "", "", "")

  /** `search` occurs in `text`, ignoring case. */
  predicate ContainsIgnoringCase(text: string, search: string) {
    Text.Contains(Text.ToLower(text), Text.ToLower(search))
  }

  /** The search criterion: empty, or found in the name, or found in
      non-empty notes. */
  predicate MatchesSearch(r: Record, search: string) {
    || search == ""
    || ContainsIgnoringCase(r.name, search)
    || (Truthy(r.notes) && ContainsIgnoringCase(r.notes.value, search))
  }

  /** A record passes when it satisfies all four criteria. */
  predicate Keep(r: Record, f: Filters) {
    && MatchesSearch(r, f.search)
    && (f.status == "" || r.status == f.status)
    && (f.category == "" || r.category == f.category)
    && (f.priority == "" || r.priority == f.priority)
  }

  /** `Scripts.applyFilters`: the records that pass, in their original
      order. */
  function ApplyFilters(xs: seq<Record>, f: Filters): (r: seq<Record>)
    ensures IsSubsequence(r, xs)
    ensures forall x :: x in r <==> x in xs && Keep(x, f)
    ensures forall x :: multiset(r)[x] == if Keep(x, f) then multiset(xs)[x] else 0
    ensures |r| <= |xs|
  {
    if xs == [] then []
    else
      var rest := ApplyFilters(xs[1..], f);
      assert xs == [xs[0]] + xs[1..];
      if Keep(xs[0], f) then [xs[0]] + rest else rest
  }

  /** Filtering a concatenation filters each part: every record is judged
      on its own, and the order of the survivors is the order of the input. */
  lemma {:induction false} ApplyFiltersAppend(xs: seq<Record>, ys: seq<Record>, f: Filters)
    ensures ApplyFilters(xs + ys, f) == ApplyFilters(xs, f) + ApplyFilters(ys, f)
  {
    if xs == [] {
      assert xs + ys == ys;
    } else {
      var zs := xs + ys;
      assert zs[0] == xs[0];
      assert zs[1..] == xs[1..] + ys;
      ApplyFiltersAppend(xs[1..], ys, f);
      if Keep(xs[0], f) {
        assert ApplyFilters(zs, f) == [xs[0]] + ApplyFilters(xs[1..] + ys, f);
        assert ApplyFilters(xs, f) == [xs[0]] + ApplyFilters(xs[1..], f);
        var a, b := ApplyFilters(xs[1..], f), ApplyFilters(ys, f);
        ConcatAssociative([xs[0]], a, b);
      } else {
        assert ApplyFilters(zs, f) == ApplyFilters(xs[1..] + ys, f);
        assert ApplyFilters(xs, f) == ApplyFilters(xs[1..], f);
      }
    }
  }

  /** With every criterion empty the filter gives back the whole list, so
      clearing the filters restores the full list. */
  lemma {:induction false} NoFiltersKeepsAll(xs: seq<Record>)
    ensures ApplyFilters(xs, NoFilters) == xs
  {
    if xs != [] {
      NoFiltersKeepsAll(xs[1..]);
      assert xs == [xs[0]] + xs[1..];
    }
  }

  /** Filtering twice with the same criteria is filtering once. */
  lemma {:induction false} ApplyFiltersIdempotent(xs: seq<Record>, f: Filters)
    ensures ApplyFilters(ApplyFilters(xs, f), f) == ApplyFilters(xs, f)
  {
    if xs != [] {
      ApplyFiltersIdempotent(xs[1..], f);
      if Keep(xs[0], f) {
        assert ([xs[0]] + ApplyFilters(xs[1..], f))[1..] == ApplyFilters(xs[1..], f);
      }
    }
  }

  /** Searching is case-insensitive: a search term and its lower-case form
      select the same records. */
  lemma SearchIgnoresCase(xs: seq<Record>, f: Filters)
    ensures ApplyFilters(xs, f.(search := Text.ToLower(f.search))) == ApplyFilters(xs, f)
  {
    Text.ToLowerIdempotent(f.search);
    var g := f.(search := Text.ToLower(f.search));
    assert f.search == "" <==> g.search == "";
    assert forall x :: Keep(x, g) == Keep(x, f);
    SameKeepSameFilter(xs, g, f);
  }

  lemma {:induction false} SameKeepSameFilter(xs: seq<Record>, f: Filters, g: Filters)
    requires forall x :: Keep(x, f) == Keep(x, g)
    ensures ApplyFilters(xs, f) == ApplyFilters(xs, g)
  {
    if xs != [] {
      SameKeepSameFilter(xs[1..], f, g);
    }
  }

  /** A record without notes, or with empty notes, can only match a
      non-empty search through its name. */
  lemma SearchWithoutNotesUsesName(r: Record, search: string)
    requires !Truthy(r.notes) && search != ""
    ensures MatchesSearch(r, search) <==> ContainsIgnoringCase(r.name, search)
  {
  }

  /** A search term found in the notes keeps a record whatever its name. */
  lemma SearchFindsNotes(r: Record, search: string)
    requires r.notes.Some? && ContainsIgnoringCase(r.notes.value, search)
    ensures MatchesSearch(r, search)
  {
    if search != "" && r.notes.value == "" {
      Text.EmptyContainsNothing(Text.ToLower(search));
    }
  }

  // ---------------------------------------------------------------------
  // Stats

  datatype Stats = Stats(total: nat, pending: nat, applied: nat, error: nat)

  /** The number of records whose status is exactly `status`. */
  function CountStatus(xs: seq<Record>, status: string): (n: nat)
    ensures n <= |xs|
  {
    if xs == [] then 0
    else (if xs[0].status == status then 1 else 0) + CountStatus(xs[1..], status)
  }

  /** `Scripts.updateStats`. */
  function UpdateStats(xs: seq<Record>): (s: Stats)
    ensures s.total == |xs|
    ensures s.pending + s.applied + s.error <= s.total
  {
    StatusCountsBounded(xs);
    Stats(|xs|, CountStatus(xs, "pending"), CountStatus(xs, "applied"), CountStatus(xs, "error"))
  }

  /** No record is counted under two statuses. */
  lemma {:induction false} StatusCountsBounded(xs: seq<Record>)
    ensures CountStatus(xs, "pending") + CountStatus(xs, "applied") + CountStatus(xs, "error") <= |xs|
  {
    if xs != [] {
      StatusCountsBounded(xs[1..]);
    }
  }

  /** Each status count is the length of the list filtered by that status
      alone. */
  lemma {:induction false} CountIsFilteredLength(xs: seq<Record>, status: string)
    requires status != ""
    ensures CountStatus(xs, status) == |ApplyFilters(xs, NoFilters.(status := status))|
  {
    if xs != [] {
      CountIsFilteredLength(xs[1..], status);
    }
  }

  /** The three counts the dashboard shows are the sizes of the lists the
      status filter would show for `pending`, `applied` and `error`. */
  lemma UpdateStatsMatchFilters(xs: seq<Record>)
    ensures UpdateStats(xs).pending == |ApplyFilters(xs, NoFilters.(status := "pending"))|
    ensures UpdateStats(xs).applied == |ApplyFilters(xs, NoFilters.(status := "applied"))|
    ensures UpdateStats(xs).error == |ApplyFilters(xs, NoFilters.(status := "error"))|
  {
    CountIsFilteredLength(xs, "pending");
    CountIsFilteredLength(xs, "applied");
    CountIsFilteredLength(xs, "error");
  }
}

=== FILE: common.dfy ===
/** Small shared vocabulary: optional values, results, dictionary keys that
    may be missing, and two sequence predicates used across the model. */
module Common {

  /** A value that may be null (`None` in Python, `null` in JavaScript). */
  datatype Option<+T> = None | Some(value: T) {
    function GetOr(default: T): T {
      match this
      case Some(v) => v
      case None => default
    }
  }

  /** The outcome of a step that can raise. */
  datatype Result<+R, +E> = Success(value: R) | Failure(error: E)

  /** A key of a JSON object: either missing, or present with some value
      (which may itself be null). */
  datatype Field<+T> = Absent | Present(value: T)

  /** The value a present key carries, or `previous` when the key is missing. */
  function Pick<T>(previous: T, f: Field<T>): T {
    match f
    case Present(v) => v
    case Absent => previous
  }

  /** Python/JavaScript truthiness of a nullable string: neither null nor empty. */
  predicate Truthy(s: Option<string>) {
    s.Some? && s.value != ""
  }

  /** `a` can be obtained from `b` by deleting elements, keeping relative order. */
  predicate IsSubsequence<T(==)>(a: seq<T>, b: seq<T>)
    decreases |b|
  {
    a == [] || (b != [] && ((a[0] == b[0] && IsSubsequence(a[1..], b[1..])) || IsSubsequence(a, b[1..])))
  }

  /** No value occurs twice. */
  predicate NoDuplicates<T(==)>(s: seq<T>) {
    forall i, j :: 0 <= i < j < |s| ==> s[i] != s[j]
  }

  lemma ConcatAssociative<T>(a: seq<T>, b: seq<T>, c: seq<T>)
    ensures a + (b + c) == (a + b) + c
  {
  }
}

=== FILE: display.dfy ===
/** What the client shows for a record (src/static/app.js): the label and
    icon tables of `Utils`, the card built by `createScriptCard` (only the
    parts that are decisions: fallback texts, the optional rows and the
    action buttons), and the empty-state/grid choice of `render`. */
module Display {
  import opened Common
  import ClientFilters

  type Record = ClientFilters.Record

  // ---------------------------------------------------------------------
  // Label and icon tables

  const PriorityLabels: map<string, string> :=
    map["high" := "Alta", "medium" := "Media", "low" := "Baja"]

  const StatusLabels: map<string, string> :=
    map["pending" := "Pendiente", "applied" := "Aplicado", "error" := "Error"]

  const CategoryIcons: map<string, string> :=
    map["BD" := "fas fa-database", "Alters" := "fas fa-wrench", "Updates" := "fas fa-sync-alt",
        "Vistas" := "fas fa-eye", "Permisos" := "fas fa-key", "Scripts ID" := "fas fa-code"]

  const StatusIcons: map<string, string> :=
    map["pending" := "fas fa-clock", "applied" := "fas fa-check-circle",
        "error" := "fas fa-exclamation-triangle"]

  const DefaultCategoryIcon := "fas fa-file-code"
  const DefaultStatusIcon := "fas fa-question-circle"

  /** A table lookup with a fallback for codes the table does not list. */
  function LabelOr(table: map<string, string>, code: string, fallback: string): string {
    if code in table then table[code] else fallback
  }

  /** `Utils.getPriorityText`: the Spanish label of a known priority, the
      code itself otherwise. */
  function PriorityText(priority: string): (r: string)
    ensures priority in PriorityLabels ==> r == PriorityLabels[priority]
    ensures r == priority <==> priority !in PriorityLabels
  {
    LabelOr(PriorityLabels, priority, priority)
  }

  /** `Utils.getStatusText`. */
  function StatusText(status: string): (r: string)
    ensures status in StatusLabels ==> r == StatusLabels[status]
    ensures r == status <==> status !in StatusLabels
  {
    LabelOr(StatusLabels, status, status)
  }

  /** `Utils.getCategoryIcon`. */
  function CategoryIcon(category: string): (r: string)
    ensures category in CategoryIcons ==> r == CategoryIcons[category]
    ensures r == DefaultCategoryIcon <==> category !in CategoryIcons
  {
    LabelOr(CategoryIcons, category, DefaultCategoryIcon)
  }

  /** `Utils.getStatusIcon`. */
  function StatusIcon(status: string): (r: string)
    ensures status in StatusIcons ==> r == StatusIcons[status]
    ensures r == DefaultStatusIcon <==> status !in StatusIcons
  {
    LabelOr(StatusIcons, status, DefaultStatusIcon)
  }

  /** Every status that has a label also has an icon, and the other way
      round, so a status shows its default icon exactly when it shows its
      raw code as text. */
  lemma StatusIconFallsBackWithText(status: string)
    ensures StatusIcon(status) == DefaultStatusIcon <==> StatusText(status) == status
  {
  }

  /** The three statuses the server writes all have a label and an icon. */
  lemma KnownStatusesAreLabelled(status: string)
    requires status in {"pending", "applied", "error"}
    ensures StatusText(status) != status && StatusIcon(status) != DefaultStatusIcon
  {
  }

  // ---------------------------------------------------------------------
  // The tables as the JavaScript code looks them up

  /** The value a property read on an object literal produces: an own
      string property, or a member inherited from `Object.prototype`. */
  datatype JsValue = Str(text: string) | Inherited(member: string)

  /** The members every object literal inherits from `Object.prototype`
      (all of them truthy: functions, or the prototype object itself). */
  const PrototypeMembers: set<string> :=
    {"constructor", "hasOwnProperty", "isPrototypeOf", "propertyIsEnumerable",
     "toLocaleString", "toString", "valueOf", "__proto__", "__defineGetter__",
     "__defineSetter__", "__lookupGetter__", "__lookupSetter__"}

  /** `table[code] || fallback` on an object literal: the own property when
      there is one, else an inherited member when the code names one, else
      the fallback (the table's own strings are all non-empty, hence
      truthy). */
  function LookupAsWritten(table: map<string, string>, code: string, fallback: string): (r: JsValue)
    ensures code in table ==> r == Str(table[code])
    ensures r.Inherited? <==> code !in table && code in PrototypeMembers
  {
    if code in table then Str(table[code])
    else if code in PrototypeMembers then Inherited(code)
    else Str(fallback)
  }

  /** `getPriorityText` as written. */
  function PriorityTextAsWritten(priority: string): JsValue {
    LookupAsWritten(PriorityLabels, priority, priority)
  }

  /** `getStatusIcon` as written. */
  function StatusIconAsWritten(status: string): JsValue {
    LookupAsWritten(StatusIcons, status, DefaultStatusIcon)
  }

  /** A priority or status code equal to the name of an inherited member
      does not fall back: the lookup yields the inherited function, which
      is what the card then shows. */
  lemma InheritedMemberDefeatsFallback()
    ensures PriorityTextAsWritten("toString") == Inherited("toString")
    ensures PriorityText("toString") == "toString"
    ensures StatusIconAsWritten("constructor") == Inherited("constructor")
    ensures StatusIcon("constructor") == DefaultStatusIcon
  {
  }

  /** Off the inherited member names, the lookup as written and the
      corrected tables agree. */
  lemma LookupAgreesOffPrototype(table: map<string, string>, code: string, fallback: string)
    requires code !in PrototypeMembers
    ensures LookupAsWritten(table, code, fallback) == Str(LabelOr(table, code, fallback))
  {
  }

  // ---------------------------------------------------------------------
  // Cards

  /** The buttons a card carries, each bound to the record's id. */
  datatype Action = EditAction(id: int) | DeleteAction(id: int) | MarkAppliedAction(id: int)

  /** The decisions `createScriptCard` takes for one record. */
  datatype Card = Card(
    id: int,
    categoryIcon: string,
    pathText: string,
    priorityText: string,
    statusIcon: string,
    statusText: string,
    responsibleText: string,
    showsApplied: bool,
    notesText: Option<string>,
    header: seq<Action>,
    footer: seq<Action>)

  const NoPath := "Sin ruta especificada"
  const NoResponsible := "No asignado"

  /** JavaScript `s || fallback` on a nullable string. */
  function TextOr(s: Option<string>, fallback: string): (r: string)
    ensures Truthy(s) ==> r == s.value
    ensures !Truthy(s) ==> r == fallback
  {
    if Truthy(s) then s.value else fallback
  }

  /** The footer: "Marcar Aplicado" for a pending record, then "Editar". */
  function FooterActions(r: Record): (acts: seq<Action>)
    ensures MarkAppliedAction(r.id) in acts <==> r.status == "pending"
    ensures acts != [] && acts[|acts| - 1] == EditAction(r.id)
    ensures forall a :: a in acts ==> a.id == r.id
  {
    (if r.status == "pending" then [MarkAppliedAction(r.id)] else []) + [EditAction(r.id)]
  }

  function CardOf(r: Record): (c: Card)
    ensures c.id == r.id
    ensures c.header == [EditAction(r.id), DeleteAction(r.id)]
    ensures MarkAppliedAction(r.id) in c.footer <==> r.status == "pending"
    ensures EditAction(r.id) in c.footer
    ensures c.pathText == NoPath <==> !Truthy(r.path) || r.path.value == NoPath
    ensures c.responsibleText == NoResponsible <==> !Truthy(r.responsible) || r.responsible.value == NoResponsible
    ensures c.showsApplied <==> r.dateApplied.Some?
    ensures c.notesText.Some? <==> Truthy(r.notes)
    ensures c.notesText.Some? ==> c.notesText.value == r.notes.value
    ensures c.categoryIcon == CategoryIcon(r.category) && c.priorityText == PriorityText(r.priority)
    ensures c.statusIcon == StatusIcon(r.status) && c.statusText == StatusText(r.status)
  {
    Card(
      r.id,
      CategoryIcon(r.category),
      TextOr(r.path, NoPath),
      PriorityText(r.priority),
      StatusIcon(r.status),
      StatusText(r.status),
      TextOr(r.responsible, NoResponsible),
      r.dateApplied.Some?,
      if Truthy(r.notes) then r.notes else None,
      [EditAction(r.id), DeleteAction(r.id)],
      FooterActions(r))
  }

  /** What `render` shows. */
  datatype View = EmptyState | Grid(cards: seq<Card>)

  function Render(xs: seq<Record>): (v: View)
    ensures v.EmptyState? <==> xs == []
    ensures v.Grid? ==> |v.cards| == |xs| && forall i :: 0 <= i < |xs| ==> v.cards[i].id == xs[i].id
    ensures v.Grid? ==> forall i :: 0 <= i < |xs| ==> v.cards[i] == CardOf(xs[i])
  {
    if xs == [] then EmptyState else Grid(CardsOf(xs))
  }

  function CardsOf(xs: seq<Record>): (cs: seq<Card>)
    ensures |cs| == |xs|
    ensures forall i :: 0 <= i < |xs| ==> cs[i] == CardOf(xs[i])
  {
    if xs == [] then [] else [CardOf(xs[0])] + CardsOf(xs[1..])
  }

  /** The number of cards offering "Marcar Aplicado". */
  function MarkAppliedButtons(cs: seq<Card>): nat {
    if cs == [] then 0
    else (if MarkAppliedAction(cs[0].id) in cs[0].footer then 1 else 0) + MarkAppliedButtons(cs[1..])
  }

  /** The grid offers "Marcar Aplicado" on exactly as many cards as the
      shown list has pending records. */
  lemma {:induction false} MarkAppliedButtonsCountPending(xs: seq<Record>)
    ensures MarkAppliedButtons(CardsOf(xs)) == ClientFilters.CountStatus(xs, "pending")
  {
    if xs != [] {
      assert CardsOf(xs)[1..] == CardsOf(xs[1..]);
      MarkAppliedButtonsCountPending(xs[1..]);
    }
  }
}

=== FILE: divergences.dfy ===
/** Where the client and the server disagree.  The client searches names
    and notes (src/static/app.js, `applyFilters`) while the server searches
    names only (src/models/script.py, `search_and_filter`); the client's
    form defaults the responsible party to "DBA" (`Modal.reset`) while the
    server's column default is "DBA Team".  Both sides are modelled as
    written and the lemmas here state how they differ. */
module Divergences {
  import opened Common
  import Text
  import ClientFilters
  import opened ScriptModel
  import opened ScriptRoutes
  import AppUi

  /** A stored row as the client holds it after the listing: the same
      columns, with the NOT NULL ones unwrapped. */
  function Received(d: ScriptDict): (r: ClientFilters.Record)
    requires d.name.Some? && d.category.Some? && d.priority.Some? && d.status.Some?
    ensures r.id == d.id && Some(r.name) == d.name && Some(r.status) == d.status
    ensures Some(r.category) == d.category && Some(r.priority) == d.priority
    ensures r.notes == d.notes && r.path == d.path && r.responsible == d.responsible
  {
    ClientFilters.Record(d.id, d.name.value, d.path, d.category.value, d.priority.value,
                         d.status.value, d.responsible, d.notes, d.dateCreated, d.dateApplied)
  }

  /** The client search is at least as permissive as the server's: a row
      the server finds by a search term is kept by the client for the same
      term. */
  lemma ServerSearchHitIsClientHit(id: int, s: Script, term: string)
    requires NotNull(s) && term != ""
    requires Matches(s, Criteria(Some(term), None, None, None))
    ensures ClientFilters.MatchesSearch(Received(ToDict(id, s)), term)
  {
    Text.ContainsToLower(s.name.value, term);
  }

  /** The converse fails: a term found only in the notes is kept by the
      client and dropped by the server. */
  lemma NotesMatchOnlyOnClient()
    ensures var s := NewScript(0).(name := Some("alpha"), category := Some("BD"),
                                   priority := Some("high"), notes := Some("urgent"));
            && NotNull(s)
            && ClientFilters.MatchesSearch(Received(ToDict(1, s)), "urgent")
            && !Matches(s, Criteria(Some("urgent"), None, None, None))
  {
    var s := NewScript(0).(name := Some("alpha"), category := Some("BD"),
                           priority := Some("high"), notes := Some("urgent"));
    assert Text.ToLower("urgent") == "urgent";
    assert Text.IsPrefix("urgent", "urgent");
    assert !Text.Contains("alpha", "urgent");
  }

  /** A record created through the client's "add" dialog, once the user has
      typed a name and a category, is stored with the client's default
      responsible party, not the server's. */
  lemma ClientCreateStoresClientDefault(db: Db, st: AppUi.UiState, blank: AppUi.Form,
                                        name: string, category: string, now: Time)
    requires name != "" && category != ""
    ensures var dialog := AppUi.OpenForCreate(st, blank);
            var typed := dialog.(form := dialog.form.(name := name, category := category));
            var req := AppUi.Submit(typed);
            var o := CreateScript(db, Object(req.body), now);
            && req.CreateRequest?
            && o.reply.Ok?
            && o.db.rows[db.nextId].responsible == Some(AppUi.ClientDefaultResponsible)
            && NewScript(now).responsible == Some(DefaultResponsible)
            && AppUi.ClientDefaultResponsible != DefaultResponsible
  {
  }

  /** Submitting the "add" dialog without typing a name is refused by the
      server and stores nothing. */
  lemma ClientCreateWithoutNameRejected(db: Db, st: AppUi.UiState, blank: AppUi.Form, now: Time)
    requires blank.name == ""
    ensures var req := AppUi.Submit(AppUi.OpenForCreate(st, blank));
            var o := CreateScript(db, Object(req.body), now);
            && req.CreateRequest?
            && o.reply == Err(NameAndCategoryRequired)
            && o.db == db
  {
  }
}

=== FILE: script_model.dfy ===
/** The server's `Script` record (src/models/script.py): its columns and
    defaults, the partial-update merge `from_dict`, the JSON rendering
    `to_dict`, and the three table queries `get_stats`, `get_categories` and
    `search_and_filter`.  The table is a map from primary key to record plus
    the next key the database will hand out. */
module ScriptModel {
  import opened Common
  import Text

  /** A timestamp; the clock itself is outside the model and every operation
      that reads it takes the current time as a parameter. */
  type Time = int

  const DefaultStatus := "pending"
  const DefaultResponsible := "DBA Team"
  const AppliedStatus := "applied"
  const ErrorStatus := "error"

  /** One row of the `scripts` table.  The columns declared NOT NULL are
      still optional here because an in-memory object may hold a null there
      until the database refuses it at commit time. */
  datatype Script = Script(
    name: Option<string>,
    path: Option<string>,
    category: Option<string>,
    priority: Option<string>,
    status: Option<string>,
    dateApplied: Option<Time>,
    dateCreated: Time,
    dateUpdated: Time,
    responsible: Option<string>,
    notes: Option<string>,
    fileSize: Option<int>,
    checksum: Option<string>,
    executionTime: Option<int>,
    dependencies: Option<seq<string>>)

  /** The NOT NULL constraints of the table: a row violating them is
      refused when the session commits. */
  predicate NotNull(s: Script) {
    s.name.Some? && s.category.Some? && s.priority.Some? && s.status.Some?
  }

  /** A freshly constructed record as the database will insert it when no
      value was given: column defaults for status, responsible and the two
      timestamps, null everywhere else. */
  function NewScript(now: Time): Script {
    Script(None, None, None, None, Some(DefaultStatus), None, now, now,
           Some(DefaultResponsible), None, None, None, None, None)
  }

  /** The row the database stores for an INSERT.  The ORM leaves an
      attribute that holds null out of the statement, so the column default
      applies to it just as to an attribute never set: a null status becomes
      "pending" and a null responsible "DBA Team".  Columns without a
      default stay null. */
  function InsertDefaults(s: Script): (r: Script)
    ensures r.status.Some? && r.responsible.Some?
    ensures s.status.Some? ==> r.status == s.status
    ensures s.status.None? ==> r.status == Some(DefaultStatus)
    ensures s.responsible.Some? ==> r.responsible == s.responsible
    ensures s.responsible.None? ==> r.responsible == Some(DefaultResponsible)
    ensures r.(status := s.status, responsible := s.responsible) == s
  {
    s.(status := Some(s.status.GetOr(DefaultStatus)),
       responsible := Some(s.responsible.GetOr(DefaultResponsible)))
  }

  /** The value a JSON body gives for `date_applied`: a falsy value, an ISO
      timestamp, or a string `fromisoformat` cannot parse. */
  datatype DateInput = Falsy | Iso(at: Time) | Unparsable

  /** A JSON object sent by a client, key by key.  `otherKeys` records
      whether it carries keys this record does not know (such as `id`), which
      only matters for the object's truthiness. */
  datatype Payload = Payload(
    name: Field<Option<string>>,
    path: Field<Option<string>>,
    category: Field<Option<string>>,
    priority: Field<Option<string>>,
    status: Field<Option<string>>,
    responsible: Field<Option<string>>,
    notes: Field<Option<string>>,
    fileSize: Field<Option<int>>,
    checksum: Field<Option<string>>,
    executionTime: Field<Option<int>>,
    dateApplied: Field<DateInput>,
    dependencies: Field<Option<seq<string>>>,
    otherKeys: bool)

  /** The empty JSON object `{}`. */
  const EmptyPayload := Payload(Absent, Absent, Absent, Absent, Absent, Absent, Absent,
                                Absent, Absent, Absent, Absent, Absent, false)

  /** Python truthiness of the object: it has at least one key. */
  predicate HasKeys(p: Payload) {
    || p.name.Present? || p.path.Present? || p.category.Present? || p.priority.Present?
    || p.status.Present? || p.responsible.Present? || p.notes.Present? || p.fileSize.Present?
    || p.checksum.Present? || p.executionTime.Present? || p.dateApplied.Present?
    || p.dependencies.Present? || p.otherKeys
  }

  /** Python truthiness of a dependency list: neither null nor empty. */
  predicate DependenciesTruthy(d: Option<seq<string>>) {
    d.Some? && d.value != []
  }

  /** Why `from_dict` can raise: `fromisoformat` rejected `date_applied`. */
  datatype MergeError = BadDate

  /** `date_applied` after the merge: only a truthy (here: parsed) value is
      assigned, so a falsy one leaves the current value alone. */
  function MergeDateApplied(current: Option<Time>, d: Field<DateInput>): Option<Time> {
    if d.Present? && d.value.Iso? then Some(d.value.at) else current
  }

  /** `dependencies` after the merge: a present list is stored when truthy,
      and a falsy one is stored as null. */
  function MergeDependencies(current: Option<seq<string>>, d: Field<Option<seq<string>>>): Option<seq<string>> {
    if d.Present? then (if DependenciesTruthy(d.value) then d.value else None) else current
  }

  /** `Script.from_dict`: overwrite exactly the listed columns whose keys are
      present, set `date_applied` only from a truthy value, store a falsy
      dependency list as null, and refresh `date_updated`.  The ten plain
      columns are assigned before the date is parsed; on a parse failure the
      caller discards the object, so the partly changed record is not
      returned. */
  function FromDict(s: Script, p: Payload, now: Time): (r: Result<Script, MergeError>)
    ensures r.Failure? <==> p.dateApplied == Present(Unparsable)
    ensures r.Success? ==> r.value.dateUpdated == now && r.value.dateCreated == s.dateCreated
    ensures r.Success? && s.dateApplied.Some? ==> r.value.dateApplied.Some?
    ensures r.Success? && p.dependencies.Present? ==>
              (r.value.dependencies.None? <==> !DependenciesTruthy(p.dependencies.value))
  {
    if p.dateApplied == Present(Unparsable) then Failure(BadDate)
    else
      Success(Script(
        name := Pick(s.name, p.name),
        path := Pick(s.path, p.path),
        category := Pick(s.category, p.category),
        priority := Pick(s.priority, p.priority),
        status := Pick(s.status, p.status),
        dateApplied := MergeDateApplied(s.dateApplied, p.dateApplied),
        dateCreated := s.dateCreated,
        dateUpdated := now,
        responsible := Pick(s.responsible, p.responsible),
        notes := Pick(s.notes, p.notes),
        fileSize := Pick(s.fileSize, p.fileSize),
        checksum := Pick(s.checksum, p.checksum),
        executionTime := Pick(s.executionTime, p.executionTime),
        dependencies := MergeDependencies(s.dependencies, p.dependencies)))
  }

  /** Field by field: a column changes only when its key is present, and then
      takes exactly the given value. */
  ghost predicate OverwritesPresent(s: Script, p: Payload, r: Script) {
    && (p.name.Present? ==> r.name == p.name.value) && (p.name.Absent? ==> r.name == s.name)
    && (p.path.Present? ==> r.path == p.path.value) && (p.path.Absent? ==> r.path == s.path)
    && (p.category.Present? ==> r.category == p.category.value) && (p.category.Absent? ==> r.category == s.category)
    && (p.priority.Present? ==> r.priority == p.priority.value) && (p.priority.Absent? ==> r.priority == s.priority)
    && (p.status.Present? ==> r.status == p.status.value) && (p.status.Absent? ==> r.status == s.status)
    && (p.responsible.Present? ==> r.responsible == p.responsible.value)
    && (p.responsible.Absent? ==> r.responsible == s.responsible)
    && (p.notes.Present? ==> r.notes == p.notes.value) && (p.notes.Absent? ==> r.notes == s.notes)
    && (p.fileSize.Present? ==> r.fileSize == p.fileSize.value) && (p.fileSize.Absent? ==> r.fileSize == s.fileSize)
    && (p.checksum.Present? ==> r.checksum == p.checksum.value) && (p.checksum.Absent? ==> r.checksum == s.checksum)
    && (p.executionTime.Present? ==> r.executionTime == p.executionTime.value)
    && (p.executionTime.Absent? ==> r.executionTime == s.executionTime)
  }

  /** `from_dict` overwrites exactly the present columns, never touches the
      creation time, and moves `date_applied` only to a given timestamp. */
  lemma FromDictOverwritesOnlyPresent(s: Script, p: Payload, now: Time)
    requires FromDict(s, p, now).Success?
    ensures OverwritesPresent(s, p, FromDict(s, p, now).value)
    ensures FromDict(s, p, now).value.dateCreated == s.dateCreated
    ensures var r := FromDict(s, p, now).value;
            (p.dateApplied.Present? && p.dateApplied.value.Iso? ==> r.dateApplied == Some(p.dateApplied.value.at))
            && (!(p.dateApplied.Present? && p.dateApplied.value.Iso?) ==> r.dateApplied == s.dateApplied)
    ensures p.dependencies.Absent? ==> FromDict(s, p, now).value.dependencies == s.dependencies
  {
  }

  /** An object without any known key only refreshes `date_updated`. */
  lemma FromDictWithoutKeysTouchesOnlyUpdated(s: Script, otherKeys: bool, now: Time)
    ensures FromDict(s, EmptyPayload.(otherKeys := otherKeys), now) == Success(s.(dateUpdated := now))
  {
  }

  /** Applying the same update twice is the same as applying it once, at the
      later time. */
  lemma FromDictIdempotent(s: Script, p: Payload, t1: Time, t2: Time)
    requires FromDict(s, p, t1).Success?
    ensures FromDict(FromDict(s, p, t1).value, p, t2) == FromDict(s, p, t2)
  {
  }

  function Later<T>(first: Field<T>, second: Field<T>): Field<T> {
    if second.Present? then second else first
  }

  /** The single update equivalent to `first` followed by `second`: the later
      payload wins on every key it carries, except that a falsy
      `date_applied` in it does not override the earlier timestamp. */
  function Combine(first: Payload, second: Payload): Payload {
    Payload(
      Later(first.name, second.name), Later(first.path, second.path),
      Later(first.category, second.category), Later(first.priority, second.priority),
      Later(first.status, second.status), Later(first.responsible, second.responsible),
      Later(first.notes, second.notes), Later(first.fileSize, second.fileSize),
      Later(first.checksum, second.checksum), Later(first.executionTime, second.executionTime),
      if second.dateApplied.Present? && !second.dateApplied.value.Falsy? then second.dateApplied
      else first.dateApplied,
      Later(first.dependencies, second.dependencies),
      first.otherKeys || second.otherKeys)
  }

  lemma PickLater<T>(v: T, f: Field<T>, g: Field<T>)
    ensures Pick(Pick(v, f), g) == Pick(v, Later(f, g))
  {
  }

  /** Two successive partial updates are one combined update. */
  lemma FromDictComposes(s: Script, first: Payload, second: Payload, t1: Time, t2: Time)
    requires FromDict(s, first, t1).Success?
    ensures FromDict(FromDict(s, first, t1).value, second, t2) == FromDict(s, Combine(first, second), t2)
  {
    var c := Combine(first, second);
    if second.dateApplied != Present(Unparsable) {
      var r1 := FromDict(s, first, t1).value;
      var viaTwo := FromDict(r1, second, t2).value;
      var viaOne := FromDict(s, c, t2).value;
      PickLater(s.name, first.name, second.name);
      PickLater(s.path, first.path, second.path);
      PickLater(s.category, first.category, second.category);
      PickLater(s.priority, first.priority, second.priority);
      PickLater(s.status, first.status, second.status);
      PickLater(s.responsible, first.responsible, second.responsible);
      PickLater(s.notes, first.notes, second.notes);
      PickLater(s.fileSize, first.fileSize, second.fileSize);
      PickLater(s.checksum, first.checksum, second.checksum);
      PickLater(s.executionTime, first.executionTime, second.executionTime);
      assert viaTwo.dateApplied == viaOne.dateApplied;
      assert viaTwo.dependencies == viaOne.dependencies;
    }
  }

  /** The JSON rendering of a row.  Dates are abstract; `date_created` and
      `date_updated` always have a value in this model. */
  datatype ScriptDict = ScriptDict(
    id: int,
    name: Option<string>,
    path: Option<string>,
    category: Option<string>,
    priority: Option<string>,
    status: Option<string>,
    dateApplied: Option<Time>,
    dateCreated: Option<Time>,
    dateUpdated: Option<Time>,
    responsible: Option<string>,
    notes: Option<string>,
    fileSize: Option<int>,
    checksum: Option<string>,
    executionTime: Option<int>,
    dependencies: seq<string>)

  /** `Script.to_dict`: every column under its own key, both timestamps
      present, and a null dependency list rendered as `[]`. */
  function ToDict(id: int, s: Script): (r: ScriptDict)
    ensures r.id == id && r.dependencies == s.dependencies.GetOr([])
    ensures r.dateCreated == Some(s.dateCreated) && r.dateUpdated == Some(s.dateUpdated)
    ensures r.dateApplied == s.dateApplied
    ensures r.name == s.name && r.path == s.path && r.category == s.category
    ensures r.priority == s.priority && r.status == s.status && r.responsible == s.responsible
    ensures r.notes == s.notes && r.fileSize == s.fileSize && r.checksum == s.checksum
    ensures r.executionTime == s.executionTime
  {
    ScriptDict(id, s.name, s.path, s.category, s.priority, s.status, s.dateApplied,
               Some(s.dateCreated), Some(s.dateUpdated), s.responsible, s.notes, s.fileSize,
               s.checksum, s.executionTime,
               if s.dependencies.Some? then s.dependencies.value else [])
  }

  /** Storing a dependency list and rendering it gives the list back; null
      and the empty list both come back as `[]`. */
  lemma DependenciesRoundTrip(id: int, s: Script, p: Payload, now: Time)
    requires p.dependencies.Present? && FromDict(s, p, now).Success?
    ensures ToDict(id, FromDict(s, p, now).value).dependencies == p.dependencies.value.GetOr([])
  {
  }

  /** The table: rows by primary key and the next key to hand out. */
  datatype Db = Db(rows: map<int, Script>, nextId: int)

  /** What the database guarantees of its table: keys are positive and below
      the allocation counter, and every row satisfies the NOT NULL
      constraints. */
  predicate Valid(db: Db) {
    KeysInRange(db) && AllNotNull(db.rows)
  }

  /** Every key was handed out by the counter, so the counter's next value
      is fresh. */
  predicate KeysInRange(db: Db) {
    1 <= db.nextId && forall k :: k in db.rows ==> 1 <= k < db.nextId
  }

  predicate AllNotNull(rows: map<int, Script>) {
    forall k :: k in rows ==> NotNull(rows[k])
  }

  /** A row with its key, as queries return it. */
  datatype Row = Row(id: int, script: Script)

  /** Every row is the row of that key in the table. */
  predicate FromTable(rs: seq<Row>, rows: map<int, Script>) {
    forall i :: 0 <= i < |rs| ==> rs[i].id in rows && rows[rs[i].id] == rs[i].script
  }

  predicate DistinctIds(rs: seq<Row>) {
    forall i, j :: 0 <= i < j < |rs| ==> rs[i].id != rs[j].id
  }

  /** The rows with keys in [k, hi), in key order. */
  function RowsFrom(rows: map<int, Script>, k: int, hi: int): (r: seq<Row>)
    ensures FromTable(r, rows)
    ensures forall i :: 0 <= i < |r| ==> k <= r[i].id < hi
    ensures forall i, j :: 0 <= i < j < |r| ==> r[i].id < r[j].id
    decreases hi - k
  {
    if hi <= k then []
    else
      var rest := RowsFrom(rows, k + 1, hi);
      if k in rows then [Row(k, rows[k])] + rest else rest
  }

  /** The scan misses no key in its range. */
  lemma {:induction false} RowsFromComplete(rows: map<int, Script>, k: int, hi: int, id: int)
    requires k <= id < hi && id in rows
    ensures exists i :: 0 <= i < |RowsFrom(rows, k, hi)| && RowsFrom(rows, k, hi)[i].id == id
    decreases hi - k
  {
    var r := RowsFrom(rows, k, hi);
    if id == k {
      assert r[0].id == id;
    } else {
      RowsFromComplete(rows, k + 1, hi, id);
      var rest := RowsFrom(rows, k + 1, hi);
      var i :| 0 <= i < |rest| && rest[i].id == id;
      if k in rows {
        assert r[i + 1] == rest[i];
      } else {
        assert r[i] == rest[i];
      }
    }
  }

  /** The whole table in key order. */
  function Rows(db: Db): (r: seq<Row>)
    ensures FromTable(r, db.rows) && DistinctIds(r)
    ensures KeysInRange(db) ==> forall id :: id in db.rows ==> exists i :: 0 <= i < |r| && r[i].id == id
  {
    var r := RowsFrom(db.rows, 1, db.nextId);
    assert KeysInRange(db) ==> forall id :: id in db.rows ==> exists i :: 0 <= i < |r| && r[i].id == id by {
      if KeysInRange(db) {
        forall id | id in db.rows
          ensures exists i :: 0 <= i < |r| && r[i].id == id
        {
          RowsFromComplete(db.rows, 1, db.nextId, id);
        }
      }
    }
    r
  }

  // ---------------------------------------------------------------------
  // get_stats

  datatype Stats = Stats(total: nat, pending: nat, applied: nat, error: nat)

  /** The keys of the rows whose status is exactly `status`. */
  function WithStatus(rows: map<int, Script>, status: string): set<int> {
    set k | k in rows && rows[k].status == Some(status)
  }

  function GetStats(db: Db): (r: Stats)
    ensures r.total == |db.rows|
    ensures r.pending + r.applied + r.error <= r.total
  {
    StatusCountsBounded(db.rows);
    Stats(|db.rows|, |WithStatus(db.rows, DefaultStatus)|, |WithStatus(db.rows, AppliedStatus)|,
          |WithStatus(db.rows, ErrorStatus)|)
  }

  /** The three status sets are disjoint parts of the table. */
  lemma StatusCountsBounded(rows: map<int, Script>)
    ensures |WithStatus(rows, DefaultStatus)| + |WithStatus(rows, AppliedStatus)|
            + |WithStatus(rows, ErrorStatus)| <= |rows|
  {
    var p, a, e := WithStatus(rows, DefaultStatus), WithStatus(rows, AppliedStatus),
                   WithStatus(rows, ErrorStatus);
    assert p !! a && (p + a) !! e;
    assert |p + a| == |p| + |a|;
    assert |p + a + e| == |p + a| + |e|;
    SubsetCardinality(p + a + e, rows.Keys);
    assert |rows.Keys| == |rows|;
  }

  lemma SubsetCardinality(a: set<int>, b: set<int>)
    requires a <= b
    ensures |a| <= |b|
  {
    assert b * a == a;
    assert |b - a| == |b| - |b * a|;
  }

  // ---------------------------------------------------------------------
  // get_categories

  /** The category a row contributes to the list: present and non-empty. */
  predicate ListedCategory(s: Script, c: string) {
    s.category == Some(c) && c != ""
  }

  /** Appends, in row order, every listed category not seen before. */
  function CollectCategories(rs: seq<Row>, acc: seq<string>): (r: seq<string>)
    requires NoDuplicates(acc)
    ensures NoDuplicates(r)
    ensures forall c :: c in r <==> c in acc || exists i :: 0 <= i < |rs| && ListedCategory(rs[i].script, c)
    decreases |rs|
  {
    if rs == [] then acc
    else
      var c := rs[0].script.category;
      var acc' := if c.Some? && c.value != "" && c.value !in acc then acc + [c.value] else acc;
      var r := CollectCategories(rs[1..], acc');
      assert forall c :: (exists i :: 0 <= i < |rs| && ListedCategory(rs[i].script, c))
                     <==> ListedCategory(rs[0].script, c)
                          || exists i :: 0 <= i < |rs[1..]| && ListedCategory(rs[1..][i].script, c) by {
        forall c | exists i :: 0 <= i < |rs| && ListedCategory(rs[i].script, c)
          ensures ListedCategory(rs[0].script, c)
                  || exists i :: 0 <= i < |rs[1..]| && ListedCategory(rs[1..][i].script, c)
        {
          var i :| 0 <= i < |rs| && ListedCategory(rs[i].script, c);
          if i > 0 {
            assert rs[1..][i - 1] == rs[i];
          }
        }
      }
      r
  }

  /** `Script.get_categories`: the distinct non-empty categories. */
  function GetCategories(db: Db): (r: seq<string>)
    ensures NoDuplicates(r)
    ensures forall c :: c in r ==> exists k :: k in db.rows && ListedCategory(db.rows[k], c)
  {
    var rs := Rows(db);
    var r := CollectCategories(rs, []);
    assert forall c :: c in r ==> exists k :: k in db.rows && ListedCategory(db.rows[k], c) by {
      forall c | c in r
        ensures exists k :: k in db.rows && ListedCategory(db.rows[k], c)
      {
        var i :| 0 <= i < |rs| && ListedCategory(rs[i].script, c);
        assert rs[i].id in db.rows;
      }
    }
    r
  }

  /** Every non-empty category of a row of the table is listed. */
  lemma GetCategoriesComplete(db: Db)
    requires KeysInRange(db)
    ensures forall c :: c in GetCategories(db) <==> exists k :: k in db.rows && ListedCategory(db.rows[k], c)
  {
    var rs := Rows(db);
    forall c | exists k :: k in db.rows && ListedCategory(db.rows[k], c)
      ensures c in GetCategories(db)
    {
      var k :| k in db.rows && ListedCategory(db.rows[k], c);
      var i :| 0 <= i < |rs| && rs[i].id == k;
      assert ListedCategory(rs[i].script, c);
    }
  }

  // ---------------------------------------------------------------------
  // search_and_filter

  /** The four optional criteria; a null or empty criterion is no constraint. */
  datatype Criteria = Criteria(search: Option<string>, status: Option<string>,
                               category: Option<string>, priority: Option<string>)

  /** The conjunction of the supplied criteria: the search term is a
      substring of the name (the name only, not the notes), the other three
      are equalities. */
  predicate Matches(s: Script, c: Criteria) {
    && (Truthy(c.search) ==> s.name.Some? && Text.Contains(s.name.value, c.search.value))
    && (Truthy(c.status) ==> s.status == c.status)
    && (Truthy(c.category) ==> s.category == c.category)
    && (Truthy(c.priority) ==> s.priority == c.priority)
  }

  function FilterRows(rs: seq<Row>, c: Criteria): (r: seq<Row>)
    ensures IsSubsequence(r, rs)
    ensures forall x :: x in r <==> x in rs && Matches(x.script, c)
  {
    if rs == [] then []
    else
      var rest := FilterRows(rs[1..], c);
      if Matches(rs[0].script, c) then [rs[0]] + rest else rest
  }

  /** `a` comes before `b` in a newest-first listing: later creation time
      first, ties by ascending key. */
  predicate NewerOrSame(a: Row, b: Row) {
    a.script.dateCreated > b.script.dateCreated
    || (a.script.dateCreated == b.script.dateCreated && a.id <= b.id)
  }

  predicate NewestFirst(rs: seq<Row>) {
    forall i, j :: 0 <= i < j < |rs| ==> NewerOrSame(rs[i], rs[j])
  }

  /** A row at least as new as every row of a sorted listing can head it. */
  lemma PrependSorted(x: Row, rs: seq<Row>)
    requires NewestFirst(rs)
    requires forall y :: y in rs ==> NewerOrSame(x, y)
    ensures NewestFirst([x] + rs)
  {
    var r := [x] + rs;
    forall i, j | 0 <= i < j < |r| ensures NewerOrSame(r[i], r[j]) {
      if i == 0 {
        assert r[j] == rs[j - 1];
      } else {
        assert r[i] == rs[i - 1] && r[j] == rs[j - 1];
      }
    }
  }

  function Insert(x: Row, rs: seq<Row>): (r: seq<Row>)
    requires NewestFirst(rs)
    ensures NewestFirst(r)
    ensures multiset(r) == multiset(rs) + multiset{x}
    ensures |r| == |rs| + 1
  {
    if rs == [] || NewerOrSame(x, rs[0]) then
      assert forall y :: y in rs ==> NewerOrSame(x, y) by {
        forall y | y in rs ensures NewerOrSame(x, y) {
          var k :| 0 <= k < |rs| && rs[k] == y;
          if k > 0 { assert NewerOrSame(rs[0], rs[k]); }
        }
      }
      PrependSorted(x, rs);
      [x] + rs
    else
      var tail := rs[1..];
      assert NewestFirst(tail) by {
        forall i, j | 0 <= i < j < |tail| ensures NewerOrSame(tail[i], tail[j]) {
          assert tail[i] == rs[i + 1] && tail[j] == rs[j + 1];
        }
      }
      var rest := Insert(x, tail);
      assert rs == [rs[0]] + tail;
      assert forall y :: y in rest ==> NewerOrSame(rs[0], y) by {
        forall y | y in rest ensures NewerOrSame(rs[0], y) {
          assert y in multiset(rest);
          if y != x {
            assert y in multiset(tail);
            var k :| 0 <= k < |tail| && tail[k] == y;
            assert rs[k + 1] == y;
          }
        }
      }
      PrependSorted(rs[0], rest);
      [rs[0]] + rest
  }

  function SortNewestFirst(rs: seq<Row>): (r: seq<Row>)
    ensures NewestFirst(r)
    ensures multiset(r) == multiset(rs)
    ensures |r| == |rs|
  {
    if rs == [] then []
    else
      assert rs == [rs[0]] + rs[1..];
      Insert(rs[0], SortNewestFirst(rs[1..]))
  }

  /** `Script.search_and_filter`: the rows satisfying every supplied
      criterion, newest first. */
  function SearchAndFilter(db: Db, c: Criteria): (r: seq<Row>)
    ensures FromTable(r, db.rows)
    ensures forall i :: 0 <= i < |r| ==> Matches(r[i].script, c)
    ensures NewestFirst(r)
  {
    var rs := Rows(db);
    var matching := FilterRows(rs, c);
    var r := SortNewestFirst(matching);
    forall i | 0 <= i < |r|
      ensures r[i] in rs && Matches(r[i].script, c)
    {
      assert r[i] in multiset(matching);
    }
    r
  }

  /** Sorting a list without repeated keys cannot repeat a key. */
  lemma SortKeepsDistinctIds(rs: seq<Row>, r: seq<Row>)
    requires DistinctIds(rs) && multiset(r) == multiset(rs)
    ensures DistinctIds(r)
  {
    forall i, j | 0 <= i < j < |r|
      ensures r[i].id != r[j].id
    {
      if r[i].id == r[j].id {
        assert r[i] in multiset(rs) && r[j] in multiset(rs);
        var a :| 0 <= a < |rs| && rs[a] == r[i];
        var b :| 0 <= b < |rs| && rs[b] == r[j];
        assert a == b;
        assert r[i] == r[j];
        MultiplicityOfDistinct(rs, a);
        MultiplicityAtLeastTwo(r, i, j);
      }
    }
  }

  /** In a list without repeated keys each row occurs once. */
  lemma {:induction false} MultiplicityOfDistinct(rs: seq<Row>, a: int)
    requires DistinctIds(rs) && 0 <= a < |rs|
    ensures multiset(rs)[rs[a]] == 1
  {
    if a == 0 {
      assert rs == [rs[0]] + rs[1..];
      assert rs[0] !in rs[1..] by {
        forall k | 0 <= k < |rs[1..]| ensures rs[1..][k] != rs[0] {
          assert rs[1..][k].id == rs[k + 1].id;
        }
      }
    } else {
      assert rs == [rs[0]] + rs[1..];
      assert DistinctIds(rs[1..]) by {
        forall i, j | 0 <= i < j < |rs[1..]| ensures rs[1..][i].id != rs[1..][j].id {
          assert rs[1..][i] == rs[i + 1] && rs[1..][j] == rs[j + 1];
        }
      }
      MultiplicityOfDistinct(rs[1..], a - 1);
      assert rs[1..][a - 1] == rs[a];
      assert rs[0] != rs[a];
    }
  }

  lemma MultiplicityAtLeastTwo(r: seq<Row>, i: int, j: int)
    requires 0 <= i < j < |r| && r[i] == r[j]
    ensures multiset(r)[r[i]] >= 2
  {
    assert r == r[..i] + [r[i]] + r[i + 1..j] + [r[j]] + r[j + 1..];
  }

  /** When every key came from the counter, the listing holds every matching row,
      each exactly once. */
  lemma SearchAndFilterComplete(db: Db, c: Criteria)
    requires KeysInRange(db)
    ensures DistinctIds(SearchAndFilter(db, c))
    ensures forall k :: k in db.rows && Matches(db.rows[k], c) <==>
              exists i :: 0 <= i < |SearchAndFilter(db, c)| && SearchAndFilter(db, c)[i].id == k
  {
    var r := SearchAndFilter(db, c);
    SearchAndFilterDistinct(db, c);
    forall k | k in db.rows && Matches(db.rows[k], c)
      ensures exists i :: 0 <= i < |r| && r[i].id == k
    {
      MatchingRowListed(db, c, k);
    }
  }

  lemma SearchAndFilterDistinct(db: Db, c: Criteria)
    ensures DistinctIds(SearchAndFilter(db, c))
  {
    var rs := Rows(db);
    var matching := FilterRows(rs, c);
    SubsequenceKeepsDistinctIds(matching, rs);
    SortKeepsDistinctIds(matching, SortNewestFirst(matching));
  }

  lemma MatchingRowListed(db: Db, c: Criteria, k: int)
    requires KeysInRange(db) && k in db.rows && Matches(db.rows[k], c)
    ensures exists i :: 0 <= i < |SearchAndFilter(db, c)| && SearchAndFilter(db, c)[i].id == k
  {
    var rs := Rows(db);
    var matching := FilterRows(rs, c);
    var r := SortNewestFirst(matching);
    assert r == SearchAndFilter(db, c);
    var i :| 0 <= i < |rs| && rs[i].id == k;
    var row := rs[i];
    assert row.script == db.rows[k];
    assert row in rs && Matches(row.script, c);
    assert row in matching;
    assert row in multiset(matching);
    assert row in multiset(r);
    assert row in r;
    var j :| 0 <= j < |r| && r[j] == row;
    assert r[j].id == k;
  }

  lemma {:induction false} SubsequenceKeepsDistinctIds(a: seq<Row>, b: seq<Row>)
    requires IsSubsequence(a, b) && DistinctIds(b)
    ensures DistinctIds(a)
    decreases |b|
  {
    if a == [] {
    } else {
      assert DistinctIds(b[1..]) by {
        forall i, j | 0 <= i < j < |b[1..]| ensures b[1..][i].id != b[1..][j].id {
          assert b[1..][i] == b[i + 1] && b[1..][j] == b[j + 1];
        }
      }
      if a[0] == b[0] && IsSubsequence(a[1..], b[1..]) {
        SubsequenceKeepsDistinctIds(a[1..], b[1..]);
        SubsequenceMembers(a[1..], b[1..]);
        forall i, j | 0 <= i < j < |a| ensures a[i].id != a[j].id {
          if i == 0 {
            assert a[j] == a[1..][j - 1];
            assert a[j] in b[1..];
            var k :| 0 <= k < |b[1..]| && b[1..][k] == a[j];
            assert b[1..][k] == b[k + 1];
          } else {
            assert a[i] == a[1..][i - 1] && a[j] == a[1..][j - 1];
          }
        }
      } else {
        SubsequenceKeepsDistinctIds(a, b[1..]);
      }
    }
  }

  lemma {:induction false} SubsequenceMembers<T>(a: seq<T>, b: seq<T>)
    requires IsSubsequence(a, b)
    ensures forall x :: x in a ==> x in b
    decreases |b|
  {
    if a != [] {
      if a[0] == b[0] && IsSubsequence(a[1..], b[1..]) {
        SubsequenceMembers(a[1..], b[1..]);
        assert a == [a[0]] + a[1..];
        assert b == [b[0]] + b[1..];
      } else {
        SubsequenceMembers(a, b[1..]);
        assert b == [b[0]] + b[1..];
      }
    }
  }

  /** The keys of a list of rows. */
  function IdSet(rs: seq<Row>): set<int> {
    set i | 0 <= i < |rs| :: rs[i].id
  }

  lemma {:induction false} DistinctIdsCount(rs: seq<Row>)
    requires DistinctIds(rs)
    ensures |IdSet(rs)| == |rs|
  {
    if rs != [] {
      var tail := rs[1..];
      assert DistinctIds(tail) by {
        forall i, j | 0 <= i < j < |tail| ensures tail[i].id != tail[j].id {
          assert tail[i] == rs[i + 1] && tail[j] == rs[j + 1];
        }
      }
      DistinctIdsCount(tail);
      assert IdSet(rs) == {rs[0].id} + IdSet(tail) by {
        forall k | k in IdSet(rs) ensures k in {rs[0].id} + IdSet(tail) {
          var i :| 0 <= i < |rs| && rs[i].id == k;
          if i > 0 { assert tail[i - 1] == rs[i]; }
        }
        forall k | k in IdSet(tail) ensures k in IdSet(rs) {
          var i :| 0 <= i < |tail| && tail[i].id == k;
          assert rs[i + 1] == tail[i];
        }
      }
      assert rs[0].id !in IdSet(tail) by {
        forall i | 0 <= i < |tail| ensures tail[i].id != rs[0].id {
          assert tail[i] == rs[i + 1];
        }
      }
    }
  }

  /** The status counts of `get_stats` are the lengths of the listings
      filtered by that status alone. */
  lemma StatsCountListing(db: Db, status: string)
    requires KeysInRange(db) && status != ""
    ensures |WithStatus(db.rows, status)| == |SearchAndFilter(db, Criteria(None, Some(status), None, None))|
  {
    var c := Criteria(None, Some(status), None, None);
    var r := SearchAndFilter(db, c);
    SearchAndFilterComplete(db, c);
    DistinctIdsCount(r);
    assert IdSet(r) == WithStatus(db.rows, status) by {
      forall k | k in IdSet(r) ensures k in WithStatus(db.rows, status) {
        var i :| 0 <= i < |r| && r[i].id == k;
        assert Matches(r[i].script, c);
      }
      forall k | k in WithStatus(db.rows, status) ensures k in IdSet(r) {
        assert Matches(db.rows[k], c);
        var i :| 0 <= i < |r| && r[i].id == k;
      }
    }
  }

  /** The counts `get_stats` reports are the lengths of the listings the
      status filter gives for `pending`, `applied` and `error`. */
  lemma GetStatsMatchListings(db: Db)
    requires KeysInRange(db)
    ensures GetStats(db).pending == |SearchAndFilter(db, Criteria(None, Some(DefaultStatus), None, None))|
    ensures GetStats(db).applied == |SearchAndFilter(db, Criteria(None, Some(AppliedStatus), None, None))|
    ensures GetStats(db).error == |SearchAndFilter(db, Criteria(None, Some(ErrorStatus), None, None))|
  {
    StatsCountListing(db, DefaultStatus);
    StatsCountListing(db, AppliedStatus);
    StatsCountListing(db, ErrorStatus);
  }
}

=== FILE: script_routes.dfy ===
/** The REST handlers of src/routes/scripts.py as pure transitions on the
    table: each takes the table (and the request's body and the current time
    where it needs them) and returns the table after the request together
    with the reply.  A reply is a success value or a failure; every failure
    leaves the table as it was, which is what the handlers' rollback
    guarantees. */
module ScriptRoutes {
  import opened Common
  import opened ScriptModel

  /** A request body as `request.get_json()` returns it. */
  datatype Body = NoBody | Object(fields: Payload) | Array(items: seq<Payload>)

  /** Python truthiness of the parsed body. */
  predicate BodyTruthy(b: Body) {
    match b
    case NoBody => false
    case Object(p) => HasKeys(p)
    case Array(items) => items != []
  }

  /** Why a handler answers `success: false`.  The 400 and 404 replies
      carry a fixed message; the 500 replies carry the exception's text,
      which is outside the model. */
  datatype Failure =
    | NameAndCategoryRequired  // 400 on create: "Nombre y categoría son requeridos"
    | NotFound                 // 404 on update, delete, apply, get: "Script no encontrado"
    | NoData                   // 400 on update: "No se proporcionaron datos"
    | ArrayExpected            // 400 on import: "Se esperaba un array de scripts"
    | NotAnObject              // 500: `.get` called on a list body
    | InvalidDate              // 500: `fromisoformat` raised
    | NullColumn               // 500: the commit refused a NOT NULL column

  datatype Reply<+T> = Ok(data: T) | Err(failure: Failure)

  /** The table after a request, and the reply. */
  datatype Outcome<+T> = Outcome(db: Db, reply: Reply<T>)

  /** `data.get('name')` and `data.get('category')` are both truthy. */
  predicate HasNameAndCategory(b: Body) {
    b.Object? && Truthy(Pick(None, b.fields.name)) && Truthy(Pick(None, b.fields.category))
  }

  /** Writes `s` under `id` and commits; the commit fails, and nothing is
      written, when a NOT NULL column is null. */
  function Commit(db: Db, id: int, s: Script, nextId: int): Outcome<ScriptDict> {
    if NotNull(s) then Outcome(Db(db.rows[id := s], nextId), Ok(ToDict(id, s)))
    else Outcome(db, Err(NullColumn))
  }

  // ---------------------------------------------------------------------
  // POST /scripts

  /** `create_script`. */
  function CreateScript(db: Db, body: Body, now: Time): (o: Outcome<ScriptDict>)
    ensures o.reply.Err? ==> o.db == db
    ensures o.reply == Err(NotAnObject) <==> body.Array? && body.items != []
    ensures o.reply == Err(NameAndCategoryRequired) <==>
              !(body.Array? && body.items != []) && !HasNameAndCategory(body)
    ensures o.reply.Ok? ==>
              && HasNameAndCategory(body)
              && o.db.nextId == db.nextId + 1
              && FromDict(NewScript(now), body.fields, now).Success?
              && o.db.rows == db.rows[db.nextId := InsertDefaults(FromDict(NewScript(now), body.fields, now).value)]
              && o.reply.data == ToDict(db.nextId, o.db.rows[db.nextId])
    ensures (&& HasNameAndCategory(body)
             && FromDict(NewScript(now), body.fields, now).Success?
             && NotNull(InsertDefaults(FromDict(NewScript(now), body.fields, now).value)))
            ==> o.reply.Ok?
  {
    match body
    case Array(items) =>
      if items == [] then Outcome(db, Err(NameAndCategoryRequired)) else Outcome(db, Err(NotAnObject))
    case NoBody => Outcome(db, Err(NameAndCategoryRequired))
    case Object(p) =>
      if !HasNameAndCategory(body) then Outcome(db, Err(NameAndCategoryRequired))
      else
        match FromDict(NewScript(now), p, now)
        case Failure(_) => Outcome(db, Err(InvalidDate))
        case Success(s) => Commit(db, db.nextId, InsertDefaults(s), db.nextId + 1)
  }

  /** A successful create adds exactly one row under a fresh key and changes
      no other row. */
  lemma CreateAddsExactlyOne(db: Db, body: Body, now: Time)
    requires KeysInRange(db)
    ensures var o := CreateScript(db, body, now);
            o.reply.Ok? ==>
              && db.nextId !in db.rows
              && o.db.rows.Keys == db.rows.Keys + {db.nextId}
              && |o.db.rows| == |db.rows| + 1
              && (forall k :: k in db.rows ==> o.db.rows[k] == db.rows[k])
              && KeysInRange(o.db)
  {
  }

  /** A created row takes the column defaults for the keys the body leaves
      out or sets to null: status `pending`, responsible `DBA Team`; a given
      value is kept.  Without a `date_applied` it has no application date,
      and the creation time is both timestamps. */
  lemma CreateDefaults(db: Db, body: Body, now: Time)
    ensures var o := CreateScript(db, body, now);
            o.reply.Ok? ==>
              var s := o.db.rows[db.nextId];
              && (Pick(None, body.fields.status).None? ==> s.status == Some(DefaultStatus))
              && (Pick(None, body.fields.status).Some? ==> s.status == Pick(None, body.fields.status))
              && (Pick(None, body.fields.responsible).None? ==> s.responsible == Some(DefaultResponsible))
              && (Pick(None, body.fields.responsible).Some? ==>
                    s.responsible == Pick(None, body.fields.responsible))
              && (body.fields.dateApplied.Absent? ==> s.dateApplied.None?)
              && s.dateCreated == now && s.dateUpdated == now
  {
  }

  // ---------------------------------------------------------------------
  // GET /scripts/<id>

  /** `get_script`. */
  function GetScript(db: Db, id: int): (r: Reply<ScriptDict>)
    ensures r.Ok? <==> id in db.rows
    ensures r.Ok? ==> r.data == ToDict(id, db.rows[id])
    ensures r.Err? ==> r.failure == NotFound
  {
    if id in db.rows then Ok(ToDict(id, db.rows[id])) else Err(NotFound)
  }

  /** What create answers is what a later read returns. */
  lemma CreateThenGet(db: Db, body: Body, now: Time)
    ensures var o := CreateScript(db, body, now);
            o.reply.Ok? ==> GetScript(o.db, db.nextId) == Ok(o.reply.data)
  {
  }

  // ---------------------------------------------------------------------
  // PUT /scripts/<id>

  /** The object `from_dict` sees for an update body.  For a list body
      every `field in data` test is a membership test on the list, which
      holds objects and never a field name, so no column is assigned. */
  function UpdateFields(b: Body): Payload {
    match b
    case Object(p) => p
    case _ => EmptyPayload
  }

  /** `update_script`. */
  function UpdateScript(db: Db, id: int, body: Body, now: Time): (o: Outcome<ScriptDict>)
    ensures o.reply.Err? ==> o.db == db
    ensures o.reply == Err(NotFound) <==> id !in db.rows
    ensures id in db.rows && !BodyTruthy(body) ==> o.reply == Err(NoData)
    ensures o.reply.Ok? ==>
              && BodyTruthy(body)
              && o.db.nextId == db.nextId
              && FromDict(db.rows[id], UpdateFields(body), now).Success?
              && o.db.rows == db.rows[id := FromDict(db.rows[id], UpdateFields(body), now).value]
              && o.reply.data == ToDict(id, o.db.rows[id])
    ensures (&& id in db.rows && BodyTruthy(body)
             && FromDict(db.rows[id], UpdateFields(body), now).Success?
             && NotNull(FromDict(db.rows[id], UpdateFields(body), now).value))
            ==> o.reply.Ok?
  {
    if id !in db.rows then Outcome(db, Err(NotFound))
    else if !BodyTruthy(body) then Outcome(db, Err(NoData))
    else
      match FromDict(db.rows[id], UpdateFields(body), now)
      case Failure(_) => Outcome(db, Err(InvalidDate))
      case Success(s) => Commit(db, id, s, db.nextId)
  }

  /** An update changes the one row it names, only in the columns the body
      carries, and no other row. */
  lemma UpdateChangesOnlyTarget(db: Db, id: int, body: Body, now: Time)
    ensures var o := UpdateScript(db, id, body, now);
            o.reply.Ok? ==>
              && o.db.rows.Keys == db.rows.Keys
              && (forall k :: k in db.rows && k != id ==> o.db.rows[k] == db.rows[k])
              && OverwritesPresent(db.rows[id], UpdateFields(body), o.db.rows[id])
              && o.db.rows[id].dateCreated == db.rows[id].dateCreated
              && o.db.rows[id].dateUpdated == now
  {
    var o := UpdateScript(db, id, body, now);
    if o.reply.Ok? {
      FromDictOverwritesOnlyPresent(db.rows[id], UpdateFields(body), now);
    }
  }

  /** A list body touches nothing but the update time. */
  lemma UpdateWithListTouchesOnlyTime(db: Db, id: int, items: seq<Payload>, now: Time)
    requires id in db.rows && items != [] && NotNull(db.rows[id])
    ensures UpdateScript(db, id, Array(items), now).db.rows[id] == db.rows[id].(dateUpdated := now)
  {
    FromDictWithoutKeysTouchesOnlyUpdated(db.rows[id], false, now);
  }

  // ---------------------------------------------------------------------
  // DELETE /scripts/<id>

  /** `delete_script`. */
  function DeleteScript(db: Db, id: int): (o: Outcome<()>)
    ensures o.reply.Ok? <==> id in db.rows
    ensures o.reply.Err? ==> o.db == db
    ensures o.reply == Err(NotFound) <==> id !in db.rows
    ensures o.reply.Ok? ==>
              && o.db.rows.Keys == db.rows.Keys - {id}
              && |o.db.rows| == |db.rows| - 1
              && (forall k :: k in o.db.rows ==> o.db.rows[k] == db.rows[k])
              && o.db.nextId == db.nextId
  {
    if id !in db.rows then Outcome(db, Err(NotFound))
    else Outcome(Db(db.rows - {id}, db.nextId), Ok(()))
  }

  /** Deleting the row a create just added gives back the original rows. */
  lemma CreateThenDeleteRestores(db: Db, body: Body, now: Time)
    requires KeysInRange(db)
    ensures var o := CreateScript(db, body, now);
            o.reply.Ok? ==> DeleteScript(o.db, db.nextId).db.rows == db.rows
  {
    var o := CreateScript(db, body, now);
    if o.reply.Ok? {
      assert o.db.rows - {db.nextId} == db.rows;
    }
  }

  /** A deleted row cannot be read back. */
  lemma DeleteThenGet(db: Db, id: int)
    ensures GetScript(DeleteScript(db, id).db, id) == Err(NotFound)
  {
  }

  // ---------------------------------------------------------------------
  // POST /scripts/<id>/apply

  /** The row after `apply_script`. */
  function Applied(s: Script, now: Time): Script {
    s.(status := Some(AppliedStatus), dateApplied := Some(now), dateUpdated := now)
  }

  /** `apply_script`: there is no check of the current status, so an
      applied row can be applied again. */
  function ApplyScript(db: Db, id: int, now: Time): (o: Outcome<ScriptDict>)
    ensures o.reply.Ok? <==> id in db.rows
    ensures o.reply.Err? ==> o.db == db
    ensures o.reply == Err(NotFound) <==> id !in db.rows
    ensures o.reply.Ok? ==>
              && o.db.nextId == db.nextId
              && o.db.rows.Keys == db.rows.Keys
              && (forall k :: k in db.rows && k != id ==> o.db.rows[k] == db.rows[k])
              && o.db.rows[id].status == Some(AppliedStatus)
              && o.db.rows[id].dateApplied == Some(now) && o.db.rows[id].dateUpdated == now
              && o.reply.data == ToDict(id, o.db.rows[id])
  {
    if id !in db.rows then Outcome(db, Err(NotFound))
    else
      var s := Applied(db.rows[id], now);
      Outcome(Db(db.rows[id := s], db.nextId), Ok(ToDict(id, s)))
  }

  /** Apply leaves every other column of the row alone. */
  lemma ApplyKeepsOtherColumns(db: Db, id: int, now: Time)
    requires id in db.rows
    ensures var before := db.rows[id];
            var after := ApplyScript(db, id, now).db.rows[id];
            && after.name == before.name && after.path == before.path
            && after.category == before.category && after.priority == before.priority
            && after.dateCreated == before.dateCreated && after.responsible == before.responsible
            && after.notes == before.notes && after.fileSize == before.fileSize
            && after.checksum == before.checksum && after.executionTime == before.executionTime
            && after.dependencies == before.dependencies
  {
  }

  /** Applying twice is the same as applying once, at the later time. */
  lemma ApplyIdempotent(db: Db, id: int, t1: Time, t2: Time)
    ensures ApplyScript(ApplyScript(db, id, t1).db, id, t2).db == ApplyScript(db, id, t2).db
  {
    if id in db.rows {
      assert Applied(Applied(db.rows[id], t1), t2) == Applied(db.rows[id], t2);
    }
  }

  /** Applying a pending row moves it from the pending count to the applied
      count and leaves the total alone. */
  lemma ApplyShiftsStats(db: Db, id: int, now: Time)
    requires id in db.rows && db.rows[id].status == Some(DefaultStatus)
    ensures var before := GetStats(db);
            var after := GetStats(ApplyScript(db, id, now).db);
            && after.total == before.total
            && after.pending == before.pending - 1
            && after.applied == before.applied + 1
            && after.error == before.error
  {
    var rows' := ApplyScript(db, id, now).db.rows;
    assert rows'.Keys == db.rows.Keys;
    assert WithStatus(rows', DefaultStatus) == WithStatus(db.rows, DefaultStatus) - {id};
    assert WithStatus(rows', AppliedStatus) == WithStatus(db.rows, AppliedStatus) + {id};
    assert WithStatus(rows', ErrorStatus) == WithStatus(db.rows, ErrorStatus);
  }

  // ---------------------------------------------------------------------
  // GET /scripts

  /** A query parameter as the handler passes it on: missing and empty both
      become `None`. */
  function NormalizeArg(a: Option<string>): (r: Option<string>)
    ensures Truthy(a) ==> r == a
    ensures !Truthy(a) ==> r == None
    ensures r.Some? ==> r.value != ""
  {
    if a.Some? && a.value != "" then a else None
  }

  function NormalizeCriteria(c: Criteria): Criteria {
    Criteria(NormalizeArg(c.search), NormalizeArg(c.status), NormalizeArg(c.category), NormalizeArg(c.priority))
  }

  datatype Listing = Listing(data: seq<ScriptDict>, count: nat)

  /** `get_scripts`: the query parameters, normalised, go to
      `search_and_filter`; the reply renders each row and counts them. */
  function ListScripts(db: Db, args: Criteria): (r: Listing)
    ensures r.count == |r.data|
    ensures var rows := SearchAndFilter(db, NormalizeCriteria(args));
            |r.data| == |rows| && forall i :: 0 <= i < |rows| ==> r.data[i] == ToDict(rows[i].id, rows[i].script)
    ensures var rows := SearchAndFilter(db, NormalizeCriteria(args));
            forall i :: 0 <= i < |rows| ==> r.data[i].id == rows[i].id
  {
    var rows := SearchAndFilter(db, NormalizeCriteria(args));
    var data := seq(|rows|, i requires 0 <= i < |rows| => ToDict(rows[i].id, rows[i].script));
    Listing(data, |data|)
  }

  lemma {:induction false} FilterRowsSameMatches(rs: seq<Row>, c: Criteria, d: Criteria)
    requires forall s :: Matches(s, c) == Matches(s, d)
    ensures FilterRows(rs, c) == FilterRows(rs, d)
  {
    if rs != [] {
      FilterRowsSameMatches(rs[1..], c, d);
    }
  }

  /** Normalising the parameters does not change what is listed: the query
      itself already ignores empty criteria. */
  lemma NormalizeKeepsListing(db: Db, args: Criteria)
    ensures SearchAndFilter(db, NormalizeCriteria(args)) == SearchAndFilter(db, args)
  {
    FilterRowsSameMatches(Rows(db), NormalizeCriteria(args), args);
  }

  /** With every parameter empty or missing, the listing holds every row of
      the table. */
  lemma UnfilteredListingIsWholeTable(db: Db, args: Criteria)
    requires KeysInRange(db)
    requires !Truthy(args.search) && !Truthy(args.status) && !Truthy(args.category) && !Truthy(args.priority)
    ensures ListScripts(db, args).count == |db.rows|
    ensures ListsExactly(ListScripts(db, args).data, db.rows)
  {
    var c := NormalizeCriteria(args);
    var rows := SearchAndFilter(db, c);
    var r := ListScripts(db, args);
    assert c.search.None? && c.status.None? && c.category.None? && c.priority.None?;
    UnfilteredListsEveryRow(db, c);
    ListedIdsAreTable(db, rows);
    RenderedIds(db, rows, r.data);
  }

  /** The rendered rows are exactly the rows of the table. */
  ghost predicate ListsExactly(data: seq<ScriptDict>, rows: map<int, Script>) {
    forall k :: k in rows <==> exists i :: 0 <= i < |data| && data[i].id == k
  }

  lemma RenderedIds(db: Db, rows: seq<Row>, data: seq<ScriptDict>)
    requires |data| == |rows| && forall i :: 0 <= i < |rows| ==> data[i].id == rows[i].id
    requires forall k :: k in db.rows <==> exists i :: 0 <= i < |rows| && rows[i].id == k
    ensures ListsExactly(data, db.rows)
  {
    forall k | k in db.rows ensures exists i :: 0 <= i < |data| && data[i].id == k {
      var i :| 0 <= i < |rows| && rows[i].id == k;
      assert data[i].id == k;
    }
  }

  lemma UnfilteredListsEveryRow(db: Db, c: Criteria)
    requires KeysInRange(db)
    requires c.search.None? && c.status.None? && c.category.None? && c.priority.None?
    ensures var rows := SearchAndFilter(db, c);
            DistinctIds(rows) && forall k :: k in db.rows <==> exists i :: 0 <= i < |rows| && rows[i].id == k
  {
    SearchAndFilterComplete(db, c);
    var rows := SearchAndFilter(db, c);
    forall k | k in db.rows ensures exists i :: 0 <= i < |rows| && rows[i].id == k {
      assert Matches(db.rows[k], c);
    }
  }

  lemma ListedIdsAreTable(db: Db, rows: seq<Row>)
    requires DistinctIds(rows)
    requires forall k :: k in db.rows <==> exists i :: 0 <= i < |rows| && rows[i].id == k
    ensures |rows| == |db.rows|
  {
    DistinctIdsCount(rows);
    assert IdSet(rows) == db.rows.Keys by {
      forall k | k in IdSet(rows) ensures k in db.rows {
        var i :| 0 <= i < |rows| && rows[i].id == k;
      }
      forall k | k in db.rows ensures k in IdSet(rows) {
        var i :| 0 <= i < |rows| && rows[i].id == k;
      }
    }
  }

  // ---------------------------------------------------------------------
  // POST /scripts/import

  /** `script_data.get('name')`: a missing key reads as null. */
  function NameKey(p: Payload): Option<string> {
    Pick(None, p.name)
  }

  /** The name an import error reports: `script_data.get('name', 'unknown')`
      as Python formats it. */
  function ReportedName(p: Payload): string {
    match p.name
    case Absent => "unknown"
    case Present(None) => "None"
    case Present(Some(n)) => n
  }

  /** The first row, in key order, whose name is `name`
      (`filter_by(name=...).first()`; a null name selects null names). */
  function FirstNamed(rs: seq<Row>, name: Option<string>): (r: Option<int>)
    ensures r.Some? ==> exists i :: 0 <= i < |rs| && rs[i].id == r.value && rs[i].script.name == name
    ensures r.None? ==> forall i :: 0 <= i < |rs| ==> rs[i].script.name != name
  {
    if rs == [] then None
    else if rs[0].script.name == name then Some(rs[0].id)
    else
      var r := FirstNamed(rs[1..], name);
      assert r.Some? ==> exists i :: 0 <= i < |rs| && rs[i].id == r.value && rs[i].script.name == name by {
        if r.Some? {
          var i :| 0 <= i < |rs[1..]| && rs[1..][i].id == r.value && rs[1..][i].script.name == name;
          assert rs[i + 1] == rs[1..][i];
        }
      }
      assert r.None? ==> forall i :: 0 <= i < |rs| ==> rs[i].script.name != name by {
        if r.None? {
          forall i | 0 <= i < |rs| ensures rs[i].script.name != name {
            if i > 0 { assert rs[i] == rs[1..][i - 1]; }
          }
        }
      }
      r
  }

  function FindByName(db: Db, name: Option<string>): (r: Option<int>)
    ensures r.Some? ==> r.value in db.rows && db.rows[r.value].name == name
    ensures r.None? && KeysInRange(db) ==> forall k :: k in db.rows ==> db.rows[k].name != name
  {
    var rs := Rows(db);
    var r := FirstNamed(rs, name);
    assert r.None? && KeysInRange(db) ==> forall k :: k in db.rows ==> db.rows[k].name != name by {
      if r.None? && KeysInRange(db) {
        forall k | k in db.rows ensures db.rows[k].name != name {
          var i :| 0 <= i < |rs| && rs[i].id == k;
        }
      }
    }
    r
  }

  datatype ItemResult = ItemResult(db: Db, imported: bool)

  /** One iteration of the import loop: update the row with the same name in
      place, or add a new row.  An item whose `from_dict` raises is counted
      as an error and changes nothing. */
  function ImportItem(db: Db, p: Payload, now: Time): (r: ItemResult)
    ensures r.imported <==> p.dateApplied != Present(Unparsable)
    ensures !r.imported ==> r.db == db
    ensures var f := FindByName(db, NameKey(p));
            r.imported && f.Some? ==>
              && r.db.nextId == db.nextId && r.db.rows.Keys == db.rows.Keys
              && r.db.rows == db.rows[f.value := FromDict(db.rows[f.value], p, now).value]
    ensures var f := FindByName(db, NameKey(p));
            r.imported && f.None? ==>
              && r.db.nextId == db.nextId + 1 && r.db.rows.Keys == db.rows.Keys + {db.nextId}
              && r.db.rows == db.rows[db.nextId := InsertDefaults(FromDict(NewScript(now), p, now).value)]
  {
    match FindByName(db, NameKey(p))
    case Some(k) =>
      (match FromDict(db.rows[k], p, now)
       case Success(s) => ItemResult(Db(db.rows[k := s], db.nextId), true)
       case Failure(_) => ItemResult(db, false))
    case None =>
      (match FromDict(NewScript(now), p, now)
       case Success(s) => ItemResult(Db(db.rows[db.nextId := InsertDefaults(s)], db.nextId + 1), true)
       case Failure(_) => ItemResult(db, false))
  }

  /** The number of items whose `from_dict` does not raise: the ones without
      an unparsable `date_applied`.  It depends on the items alone, not on
      the table. */
  function ParsedCount(items: seq<Payload>): (n: nat)
    ensures n <= |items|
  {
    if items == [] then 0
    else (if items[0].dateApplied != Present(Unparsable) then 1 else 0) + ParsedCount(items[1..])
  }

  /** The reported names of the items whose `from_dict` raises, in item
      order. */
  function FailedNames(items: seq<Payload>): (r: seq<string>)
    ensures |r| + ParsedCount(items) == |items|
  {
    if items == [] then []
    else if items[0].dateApplied != Present(Unparsable) then FailedNames(items[1..])
    else [ReportedName(items[0])] + FailedNames(items[1..])
  }

  /** The table and the tallies after the import loop. */
  datatype Progress = Progress(db: Db, imported: nat, errors: seq<string>)

  function ImportEach(db: Db, items: seq<Payload>, now: Time): (r: Progress)
    ensures r.imported + |r.errors| == |items|
    ensures r.imported == ParsedCount(items)
    ensures r.errors == FailedNames(items)
    ensures r.imported <= |items|
    ensures r.db.nextId >= db.nextId
    decreases |items|
  {
    if items == [] then Progress(db, 0, [])
    else
      var step := ImportItem(db, items[0], now);
      var rest := ImportEach(step.db, items[1..], now);
      if step.imported then Progress(rest.db, rest.imported + 1, rest.errors)
      else Progress(rest.db, rest.imported, [ReportedName(items[0])] + rest.errors)
  }

  datatype ImportReport = ImportReport(importedCount: nat, errors: seq<string>)

  /** `import_scripts`: a non-empty list is required; the loop's changes are
      committed together, and the commit fails as a whole when a row is left
      with a null NOT NULL column. */
  function ImportScripts(db: Db, body: Body, now: Time): (o: Outcome<ImportReport>)
    ensures o.reply.Err? ==> o.db == db
    ensures o.reply == Err(ArrayExpected) <==> !(body.Array? && body.items != [])
    ensures o.reply.Ok? ==>
              && o.reply.data.importedCount + |o.reply.data.errors| == |body.items|
              && o.reply.data.importedCount <= |body.items|
              && AllNotNull(o.db.rows)
    ensures o.reply.Ok? ==> o.reply.data == ImportReport(ParsedCount(body.items), FailedNames(body.items))
    ensures o.reply.Ok? <==> body.Array? && body.items != [] && AllNotNull(ImportEach(db, body.items, now).db.rows)
    ensures o.reply.Ok? ==> o.db == ImportEach(db, body.items, now).db
  {
    if !(body.Array? && body.items != []) then Outcome(db, Err(ArrayExpected))
    else
      var r := ImportEach(db, body.items, now);
      if AllNotNull(r.db.rows) then Outcome(r.db, Ok(ImportReport(r.imported, r.errors)))
      else Outcome(db, Err(NullColumn))
  }

  /** No two rows share a name. */
  predicate UniqueNames(rows: map<int, Script>) {
    forall j, k :: j in rows && k in rows && j != k ==> rows[j].name != rows[k].name
  }

  /** One import step keeps names unique: the row it updates keeps its name,
      and the row it adds has a name no other row has. */
  lemma ImportItemKeepsNamesUnique(db: Db, p: Payload, now: Time)
    requires KeysInRange(db) && UniqueNames(db.rows)
    ensures var r := ImportItem(db, p, now);
            KeysInRange(r.db) && UniqueNames(r.db.rows)
  {
    var r := ImportItem(db, p, now);
    var key := NameKey(p);
    if r.imported {
      match FindByName(db, key)
      case Some(k) =>
        var s := FromDict(db.rows[k], p, now).value;
        assert s.name == Pick(db.rows[k].name, p.name);
        assert s.name == db.rows[k].name;
        assert r.db.rows == db.rows[k := s];
      case None =>
        var s := InsertDefaults(FromDict(NewScript(now), p, now).value);
        assert s.name == key;
        assert r.db.rows == db.rows[db.nextId := s];
        assert db.nextId !in db.rows;
    }
  }

  /** Import is an upsert by name: starting from a table whose names are
      unique, it never creates a second row with a name already present. */
  lemma {:induction false} ImportEachKeepsNamesUnique(db: Db, items: seq<Payload>, now: Time)
    requires KeysInRange(db) && UniqueNames(db.rows)
    ensures var r := ImportEach(db, items, now);
            KeysInRange(r.db) && UniqueNames(r.db.rows)
    decreases |items|
  {
    if items != [] {
      ImportItemKeepsNamesUnique(db, items[0], now);
      ImportEachKeepsNamesUnique(ImportItem(db, items[0], now).db, items[1..], now);
    }
  }

  /** The import adds at most one row per item and removes none. */
  lemma {:induction false} ImportEachGrowth(db: Db, items: seq<Payload>, now: Time)
    requires KeysInRange(db)
    ensures var r := ImportEach(db, items, now);
            && KeysInRange(r.db)
            && db.rows.Keys <= r.db.rows.Keys
            && |r.db.rows| <= |db.rows| + |items|
    decreases |items|
  {
    if items != [] {
      ImportItemGrowth(db, items[0], now);
      ImportEachGrowth(ImportItem(db, items[0], now).db, items[1..], now);
    }
  }

  /** One import step removes no row and adds at most one. */
  lemma ImportItemGrowth(db: Db, p: Payload, now: Time)
    requires KeysInRange(db)
    ensures var r := ImportItem(db, p, now);
            KeysInRange(r.db) && db.rows.Keys <= r.db.rows.Keys && |r.db.rows| <= |db.rows| + 1
  {
    var r := ImportItem(db, p, now);
    if r.imported && FindByName(db, NameKey(p)).None? {
      assert db.nextId !in db.rows;
      assert |r.db.rows.Keys| == |db.rows.Keys| + 1;
    }
  }

  /** Import keeps names unique and adds at most one row per item. */
  lemma ImportUpsertsByName(db: Db, body: Body, now: Time)
    requires Valid(db) && UniqueNames(db.rows)
    ensures var o := ImportScripts(db, body, now);
            && Valid(o.db) && UniqueNames(o.db.rows)
            && |o.db.rows| <= |db.rows| + (if body.Array? then |body.items| else 0)
  {
    if body.Array? && body.items != [] {
      ImportEachKeepsNamesUnique(db, body.items, now);
      ImportEachGrowth(db, body.items, now);
    }
  }

  /** One import step touches no row with another name. */
  lemma ImportItemKeepsUnnamedRow(db: Db, p: Payload, now: Time, k: int)
    requires KeysInRange(db) && k in db.rows && NameKey(p) != db.rows[k].name
    ensures var r := ImportItem(db, p, now);
            KeysInRange(r.db) && k in r.db.rows && r.db.rows[k] == db.rows[k]
  {
    var r := ImportItem(db, p, now);
    if r.imported {
      match FindByName(db, NameKey(p))
      case Some(f) =>
        assert f != k;
      case None =>
        assert db.nextId != k;
    }
  }

  /** The import loop touches only rows whose names its items carry: any
      other row comes out as it went in. */
  lemma {:induction false} ImportEachKeepsUnnamedRows(db: Db, items: seq<Payload>, now: Time, k: int)
    requires KeysInRange(db) && k in db.rows
    requires forall i :: 0 <= i < |items| ==> NameKey(items[i]) != db.rows[k].name
    ensures var r := ImportEach(db, items, now);
            k in r.db.rows && r.db.rows[k] == db.rows[k]
    decreases |items|
  {
    if items != [] {
      var step := ImportItem(db, items[0], now);
      ImportItemKeepsUnnamedRow(db, items[0], now, k);
      var rest := items[1..];
      assert forall i :: 0 <= i < |rest| ==> NameKey(rest[i]) != step.db.rows[k].name by {
        forall i | 0 <= i < |rest| ensures NameKey(rest[i]) != step.db.rows[k].name {
          assert rest[i] == items[i + 1];
        }
      }
      ImportEachKeepsUnnamedRows(step.db, rest, now, k);
    }
  }

  /** An import leaves alone every row whose name none of its items
      carries. */
  lemma ImportKeepsUnnamedRows(db: Db, items: seq<Payload>, now: Time, k: int)
    requires KeysInRange(db) && k in db.rows
    requires forall i :: 0 <= i < |items| ==> NameKey(items[i]) != db.rows[k].name
    ensures var o := ImportScripts(db, Array(items), now);
            k in o.db.rows && o.db.rows[k] == db.rows[k]
  {
    if items != [] {
      ImportEachKeepsUnnamedRows(db, items, now, k);
    }
  }

  // ---------------------------------------------------------------------
  // The table's guarantees survive every handler.

  lemma CreatePreservesValid(db: Db, body: Body, now: Time)
    requires Valid(db)
    ensures Valid(CreateScript(db, body, now).db)
  {
  }

  lemma UpdatePreservesValid(db: Db, id: int, body: Body, now: Time)
    requires Valid(db)
    ensures Valid(UpdateScript(db, id, body, now).db)
  {
  }

  lemma DeletePreservesValid(db: Db, id: int)
    requires Valid(db)
    ensures Valid(DeleteScript(db, id).db)
  {
  }

  lemma ApplyPreservesValid(db: Db, id: int, now: Time)
    requires Valid(db)
    ensures Valid(ApplyScript(db, id, now).db)
  {
  }
}

=== FILE: text.dfy ===
/** String helpers the filters rely on: lower-casing and substring search
    (`toLowerCase`/`includes` in the client, `contains` in the server query). */
module Text {

  /** Lower-cases one ASCII letter; every other character is left alone. */
  function LowerChar(c: char): char {
    if 'A' <= c <= 'Z' then (c as int + 32) as char else c
  }

  predicate IsUpper(c: char) {
    'A' <= c <= 'Z'
  }

  function ToLower(s: string): (r: string)
    ensures |r| == |s|
    ensures forall i :: 0 <= i < |s| ==> r[i] == LowerChar(s[i])
  {
    if s == [] then [] else [LowerChar(s[0])] + ToLower(s[1..])
  }

  /** Lower-casing twice is the same as lower-casing once. */
  lemma ToLowerIdempotent(s: string)
    ensures ToLower(ToLower(s)) == ToLower(s)
  {
    var once := ToLower(s);
    var twice := ToLower(once);
    assert |twice| == |once|;
    forall i | 0 <= i < |once|
      ensures twice[i] == once[i]
    {
      assert !IsUpper(once[i]);
    }
  }

  predicate IsPrefix(p: string, s: string) {
    |p| <= |s| && s[..|p|] == p
  }

  /** `sub` occurs somewhere in `s` (JavaScript `s.includes(sub)`). */
  function Contains(s: string, sub: string): bool
    decreases |s|
  {
    IsPrefix(sub, s) || (s != [] && Contains(s[1..], sub))
  }

  /** `sub` occurs in `s` starting at position `i`. */
  ghost predicate OccursAt(s: string, sub: string, i: int) {
    0 <= i && i + |sub| <= |s| && s[i..i + |sub|] == sub
  }

  /** An occurrence at a known position is found by the scan. */
  lemma {:induction false} OccursImpliesContains(s: string, sub: string, i: int)
    requires OccursAt(s, sub, i)
    ensures Contains(s, sub)
    decreases i
  {
    if i == 0 {
      assert s[..|sub|] == s[0..|sub|];
    } else {
      assert s[1..][i - 1..i - 1 + |sub|] == s[i..i + |sub|];
      OccursImpliesContains(s[1..], sub, i - 1);
    }
  }

  /** What the scan finds is an occurrence at some position. */
  lemma {:induction false} ContainsImpliesOccurs(s: string, sub: string)
    requires Contains(s, sub)
    ensures exists i :: OccursAt(s, sub, i)
    decreases |s|
  {
    if IsPrefix(sub, s) {
      assert OccursAt(s, sub, 0);
    } else {
      ContainsImpliesOccurs(s[1..], sub);
      var j :| OccursAt(s[1..], sub, j);
      assert s[1..][j..j + |sub|] == s[j + 1..j + 1 + |sub|];
      assert OccursAt(s, sub, j + 1);
    }
  }

  /** The scanning definition of `Contains` agrees with the positional one. */
  lemma ContainsIffOccurs(s: string, sub: string)
    ensures Contains(s, sub) <==> exists i :: OccursAt(s, sub, i)
  {
    if Contains(s, sub) {
      ContainsImpliesOccurs(s, sub);
    }
    if exists i :: OccursAt(s, sub, i) {
      var i :| OccursAt(s, sub, i);
      OccursImpliesContains(s, sub, i);
    }
  }

  /** Nothing non-empty occurs in the empty string. */
  lemma EmptyContainsNothing(sub: string)
    requires sub != ""
    ensures !Contains("", sub)
  {
  }

  /** A string that lower-cases `s` character by character is `ToLower(s)`. */
  lemma ToLowerPointwise(t: string, s: string)
    requires |t| == |s| && forall k :: 0 <= k < |s| ==> t[k] == LowerChar(s[k])
    ensures t == ToLower(s)
  {
    var l := ToLower(s);
    assert forall k :: 0 <= k < |s| ==> t[k] == l[k];
  }

  /** Lower-casing commutes with taking a slice. */
  lemma ToLowerSlice(s: string, i: int, j: int)
    requires 0 <= i <= j <= |s|
    ensures ToLower(s)[i..j] == ToLower(s[i..j])
  {
    var l, w := ToLower(s), s[i..j];
    var a := l[i..j];
    forall k | 0 <= k < |w| ensures a[k] == LowerChar(w[k]) {
      assert a[k] == l[i + k] && w[k] == s[i + k];
    }
    ToLowerPointwise(a, w);
  }

  /** A substring stays a substring once both sides are lower-cased. */
  lemma ContainsToLower(s: string, sub: string)
    requires Contains(s, sub)
    ensures Contains(ToLower(s), ToLower(sub))
  {
    ContainsImpliesOccurs(s, sub);
    var i :| OccursAt(s, sub, i);
    var t, lsub := ToLower(s), ToLower(sub);
    ToLowerSlice(s, i, i + |sub|);
    assert s[i..i + |sub|] == sub;
    assert t[i..i + |lsub|] == lsub;
    OccursImpliesContains(t, lsub, i);
  }
}
